=== FILE: README.md ===
# BT-Panel license mock, modelled in Dafny

`simple_license_mock.py` is a command-line tool. It makes an aaPanel/BT-Panel
installation believe it holds a PRO license. It has four commands:

- `apply` backs up the panel's `userInfo.json` and writes a mock credential
  record in its place. The record carries a JWT-shaped token bound to the
  host's server id. The command then writes the license-cache files under
  `/tmp`. It tries to make all three files immutable with `chattr +i`.
- `remove` restores the backup, or deletes the mock when there is none, and
  cleans the caches.
- `status` reports what is in place and how each file is protected.
- `fix` resets the permission bits of the data directory, the mock and the
  plugin cache.

The model has these modules:

- `Text`: Python string helpers. These are slicing, `rstrip`, `split`,
  `lower`, `str(int)` and `int(str.strip())`, plus UTF-8 encoding.
- `Base64Url`: the URL-safe alphabet of RFC 4648 section 5, with padding and
  with the padding stripped, and a canonical decoder.
- `Digest`: an MD5 hex digest is 32 characters from `0-9a-f`. The digest
  function itself is a parameter.
- `Json`: the JSON values the tool reads back, without floats, and the
  Python `in`, `.get` and `[:n]` operations on them.
- `Identity`: the server id and the MAC-derived license-cache key and paths.
- `Token`: the mock record and its token, that is, the header, payload and
  signature segments.
- `FileSystem`: files with content, an immutable attribute and permission
  bits. It holds the Python primitives the tool calls and the three
  attribute commands as the tool wraps them.
- `Controller`: the four commands, each as a function from the filesystem to
  a new filesystem plus how the command ended. A `status` run yields a
  report instead.
- `Lifecycle`: what the commands promise across invocations. `remove` undoes
  `apply`. `status` reads back what `apply` wrote. `fix` is idempotent.

The tool runs as root, so permission bits never stop it and the immutable
attribute does. An `OSError` that no `try` catches ends a command. This is
modelled as an `Aborted` step together with the state reached so far.

## Model

| member | source | states |
|---|---|---|
| Base64Url.EncodeNoPadShape | simple_license_mock.py:137-138 | a segment with its padding stripped has length 4·⌊n/3⌋ plus 0, 2 or 3, and uses only the URL-safe alphabet: no `=` and no `.` |
| Base64Url.EncodeShape | simple_license_mock.py:143 | the padded encoding has length 4·⌈n/3⌉; it is the unpadded text followed by exactly the padding count of `=` |
| Base64Url.DecodeEncode | simple_license_mock.py:137-138 | decoding a stripped segment gives back the bytes encoded |
| Base64Url.EncodeDecode | simple_license_mock.py:137-138 | every text the canonical decoder accepts is the stripped encoding of what it decodes to |
| Base64Url.DecodeUnpadded | simple_license_mock.py:137-138 | the group-by-group decoding of an unpadded encoding is the original bytes (by induction over 3-byte groups) |
| Base64Url.UnpaddedOfDecoded | simple_license_mock.py:137-138 | re-encoding what a text decodes to gives back that text (by induction over 4-symbol groups) |
| Text.Lower | simple_license_mock.py:100 | `str.lower` keeps the length, and the lowered text contains `i` exactly when the original contains `i` or `I`, which is what the attribute check relies on |
| Text.ParseDecimal | simple_license_mock.py:180 | `int(str(n).strip())` gives back `n`, so the expiry written into the cache reads back exactly |
| Identity.ServerId | simple_license_mock.py:109-113 | the server id is 64 hex characters: the digest of MAC plus hostname, then the digest of the CPU model |
| Identity.ServerIdSameIff | simple_license_mock.py:109-113 | two hosts share a server id if and only if both of their digests agree |
| Identity.CacheKeySameIff | simple_license_mock.py:169-170 | the cache key `bmac_` + md5(mac) gives back its digest; two MACs share a key if and only if their digests agree |
| Identity.CacheKey | simple_license_mock.py:170 | the cache key is 37 characters: `bmac_` followed by the 32 hex characters of the MAC's digest |
| Identity.CachePath | simple_license_mock.py:176 | the expiry file is `/tmp/` followed by the cache key, 42 characters in all |
| Identity.TimePath | simple_license_mock.py:177 | the stamp file is the expiry file's path followed by `.time` |
| Identity.CachePathsOfMac | simple_license_mock.py:176-177 | two hosts share the expiry file exactly when their MACs' digests agree, whatever their hostnames and CPUs; an expiry file is never a `.time` file |
| Token.PayloadCarriesServerId | simple_license_mock.py:121-135 | the compact payload text contains the server id verbatim |
| Token.Segment | simple_license_mock.py:137-138 | a header or payload segment uses only the URL-safe alphabet, has no dot, and decodes back to the UTF-8 bytes of its JSON text |
| Token.MakeToken | simple_license_mock.py:145 | the token has exactly two dots and parses back into the header segment, the payload segment and the signature |
| Token.Signature | simple_license_mock.py:140-143 | the signature is exactly 43 URL-safe characters, has no dot, and decodes as unpadded base64url to the UTF-8 bytes of md5(header.payload.server_id.secret) |
| Token.SignatureShape | simple_license_mock.py:143 | a 32-character hex digest encodes to 44 characters ending in exactly one `=`, so the `[:43]` cut removes nothing |
| Token.MakeTokenStructure | simple_license_mock.py:137-145 | the token has exactly two dots and splits into header, payload and signature; the first two decode to the compact header and payload JSON, all three are valid unpadded base64url, and the signature checks against the server id |
| Token.MockUserInfo | simple_license_mock.py:115-165 | the record holds the host's server id, the 32-character access and secret keys derived from it, plan `pro`, permissions `["all"]`, `is_mock`, expiry one year after the clock reading, and a well-formed token signed for the server id |
| Token.ToJsonFields | simple_license_mock.py:147-163 | the dict written holds the record's username, token, server id, plan and `is_mock` under their keys |
| Json.FromPairsLookup | simple_license_mock.py:147-163 | a dict display maps each key to the value of its last occurrence |
| Json.FromPairsKeys | simple_license_mock.py:147-163 | the keys of a dict display are exactly the keys it lists |
| Json.InFromPairs | simple_license_mock.py:316 | on a dict built from a display, `key in` is true exactly when one of the listed pairs has that key |
| Json.PrefixAppend | simple_license_mock.py:319 | slicing a string at the length of its first part gives that part back |
| FileSystem.MakeDirs | simple_license_mock.py:232 | `makedirs(exist_ok=True)` leaves every file alone, leaves the directory in place, and changes nothing when it already exists |
| FileSystem.Chmod | simple_license_mock.py:410 | `os.chmod` on a file succeeds exactly when it exists and is not immutable, and then changes that file's mode alone |
| FileSystem.ChmodDir | simple_license_mock.py:399 | `os.chmod` on a directory succeeds exactly when it exists, and then sets its mode and touches no file |
| FileSystem.Write | simple_license_mock.py:179-183 | opening for writing fails exactly on an immutable file; otherwise only that file changes: it gets the content, keeps its mode, and is created with the default mode |
| FileSystem.Copy | simple_license_mock.py:222 | `copy2` needs the source and a destination that is not immutable; it copies content and mode and not the attribute, and changes nothing else |
| FileSystem.Delete | simple_license_mock.py:273 | `os.remove` succeeds exactly on an existing file that is not immutable, and removes only it |
| FileSystem.SetImmutable | simple_license_mock.py:66-78 | true exactly when `chattr +i` works on an existing file, and then it set the attribute of that file alone; otherwise nothing changes |
| FileSystem.ClearImmutable | simple_license_mock.py:80-92 | reports success unless `chattr` cannot be started, even when it exits non-zero; it clears the attribute only when it works |
| FileSystem.LsattrHasI | simple_license_mock.py:96-100 | the lowered `lsattr` line has an `i` exactly when the file is immutable or its path has an `i` or `I` |
| FileSystem.CheckImmutable | simple_license_mock.py:94-103 | true only when `lsattr` runs on an existing file; corrected, exactly when that file is immutable; as written, exactly when it is immutable or its path contains `i` or `I` |
| Controller.PathsDistinct | simple_license_mock.py:20-24 | the user info, backup, plugin cache and two license-cache paths are five different paths |
| Controller.BackupOriginal | simple_license_mock.py:219-225 | the backup is created only when there is none and `userInfo.json` exists (and, corrected, is not the tool's own mock); it is a copy of that file and nothing else changes |
| Controller.LicenseCache | simple_license_mock.py:167-190 | it completes exactly when neither cache file is immutable; the files then hold the expiry and the stamp as decimal text, immutable exactly when `chattr` works; no other file changes |
| Controller.PlaceUserInfo | simple_license_mock.py:238-243 | writing the record fails exactly on an immutable `userInfo.json`; otherwise the file holds the record, keeps its mode, and is immutable exactly when `chattr` works |
| Controller.Apply | simple_license_mock.py:227-257 | it always leaves the data directory in place; on an immutable `userInfo.json` it stops after the backup step with the write error |
| Controller.TryDelete | simple_license_mock.py:295-300 | a caught `os.remove` removes the file exactly when it is not immutable and changes nothing else |
| Controller.CleanCacheFile | simple_license_mock.py:284-292 | a cache file survives exactly when it was immutable and `chattr -i` does not work on it; it then survives unchanged |
| Controller.Restore | simple_license_mock.py:267-274 | the restore step fails exactly on an immutable `userInfo.json`; otherwise it copies the backup over it, or with no backup deletes it, and changes nothing else |
| Controller.Remove | simple_license_mock.py:259-303 | it completes unless `userInfo.json` is immutable and `chattr -i` does not work on it; an abort names `userInfo.json`; the backup and the directories are never touched |
| Controller.CleanCaches | simple_license_mock.py:276-300 | the cache cleaning changes no file but the three caches |
| Controller.CleanCachesDeletes | simple_license_mock.py:276-300 | each cache file is gone afterwards unless it is immutable and, for the license-cache files, `chattr -i` does not work on it |
| Controller.IsMockDoc | simple_license_mock.py:409 | a dict counts as the tool's own exactly when it has an `is_mock` key; plain text never does |
| Controller.UserInfoDocFields | simple_license_mock.py:239-240 | the written document counts as the tool's own (`is_mock`), has a token, and holds the printed fields |
| Controller.ProtectionOf | simple_license_mock.py:322-331 | READONLY means the permission bits are `444`; WRITABLE carries the bits, which are not `444` |
| Controller.UserInfoStatus | simple_license_mock.py:310-337 | NOT FOUND exactly when the file is missing; ORIGINAL exactly when the document has no `token`; MOCK only for a dict with a token, and always for one whose server id is absent or can be sliced |
| Controller.ReadIntDecimal | simple_license_mock.py:346-347 | the decimal text `apply` writes into a cache file reads back as the number written |
| Controller.CacheStatus | simple_license_mock.py:339-369 | NOT FOUND exactly when the cache file is missing; EXPIRED exactly when it reads as an integer not later than now; ACTIVE exactly when it reads as an integer later than now that `datetime.fromtimestamp` can hold (years 1 to 9999 in local time), and then it reports that integer; anything else is ERROR |
| Controller.TryChmod | simple_license_mock.py:404-423 | a caught `chmod` changes only the mode of one file, and only when that file is not immutable |
| Controller.Fix | simple_license_mock.py:393-425 | the data directory becomes `755` when it exists; no file appears or disappears, and no content or attribute changes |
| Lifecycle.ApplyKeepsBackup | simple_license_mock.py:219-225 | an existing backup survives `apply` unchanged, so a second `apply` keeps the first one's backup |
| Lifecycle.ApplyBacksUp | simple_license_mock.py:219-235 | with no backup, `apply` makes one exactly when `userInfo.json` exists (corrected: and is not a mock); the backup is a copy of it |
| Lifecycle.ApplyLocksOnlyByChattr | simple_license_mock.py:243 | after `apply`, `userInfo.json` is immutable only if `chattr` works on it or it was immutable already |
| Lifecycle.ApplyWritesUserInfo | simple_license_mock.py:238-244 | unless already immutable, `userInfo.json` ends up holding the record, immutable exactly when `chattr` works, with its old mode or the default one |
| Lifecycle.ApplyCompletes | simple_license_mock.py:227-257 | `apply` completes exactly when none of `userInfo.json` and the two cache files is immutable beforehand |
| Lifecycle.ApplyWritesCache | simple_license_mock.py:173-187 | a completed `apply` leaves the expiry one year on and the stamp as decimal text, each immutable exactly when `chattr` works |
| Lifecycle.ApplyFrame | simple_license_mock.py:227-257 | `apply` touches no file but the four it names, and no directory but the data directory |
| Lifecycle.RemoveRestores | simple_license_mock.py:267-270 | a completed `remove` leaves `userInfo.json` equal to the backup's content and mode, without the attribute |
| Lifecycle.RemoveDeletes | simple_license_mock.py:271-274 | with no backup, a completed `remove` leaves no `userInfo.json` |
| Lifecycle.RemoveCleans | simple_license_mock.py:276-300 | after a completed `remove`, each cache is present exactly when it was immutable and, for the license-cache files, `chattr -i` does not work |
| Lifecycle.RemoveFrame | simple_license_mock.py:259-303 | `remove` touches no other file and no directory |
| Lifecycle.MockDocToken | simple_license_mock.py:115-165 | the written record carries the host's server id and a well-formed token whose signature checks against it |
| Lifecycle.ApplyThenRemoveRestores | simple_license_mock.py:227-303 | `apply` then `remove` on a non-immutable `userInfo.json` with no backup gives back the file exactly, and keeps a copy as the backup; corrected, the file must not be the tool's own mock |
| Lifecycle.ApplyThenRemoveFresh | simple_license_mock.py:227-303 | `apply` then `remove` on a system with neither file leaves neither |
| Lifecycle.DoubleApplyKeepsMock | simple_license_mock.py:219-225 | as written, two `apply` runs then `remove` on a fresh system leave the first run's mock in place |
| Lifecycle.DoubleApplyThenRemove | simple_license_mock.py:219-225 | corrected, two `apply` runs then `remove` on a fresh system leave no `userInfo.json` and no backup |
| Lifecycle.ProtectionCorrected | simple_license_mock.py:322-331 | with the corrected check, the reported protection is IMMUTABLE exactly for an immutable file `lsattr` can see, then READONLY for bits `444`, else WRITABLE |
| Lifecycle.CachePathPlain | simple_license_mock.py:176 | the cache path `/tmp/bmac_<hex>` contains no `i` or `I` |
| Lifecycle.CacheCheckExact | simple_license_mock.py:355 | for the cache file the attribute check, as written or corrected, is exact |
| Lifecycle.MockDocStatus | simple_license_mock.py:316-320 | on the record `apply` wrote, `status` reports MOCK with its username, the first 16 characters of its server id and its plan |
| Lifecycle.UserInfoCheckAsWritten | simple_license_mock.py:94-103 | as written, the attribute check reports `userInfo.json` immutable whenever `lsattr` runs |
| Lifecycle.StatusOverclaims | simple_license_mock.py:322-324 | as written, `status` reports a mutable mock IMMUTABLE whenever `lsattr` runs; corrected, it does not |
| Lifecycle.ApplyWithoutChattrOverclaims | simple_license_mock.py:243 | where `chattr +i` is refused but `lsattr` runs, `apply` leaves `userInfo.json` without the attribute, and as written `status` still reports it IMMUTABLE |
| Lifecycle.CacheStatusOf | simple_license_mock.py:344-367 | before `n`, a cache holding the decimal text of `n` is ACTIVE and reports `n` when `datetime` can hold `n`, and ERROR otherwise |
| Lifecycle.CacheStatusAfterApply | simple_license_mock.py:339-367 | after a completed `apply`, the cache is ACTIVE until its one-year expiry when `datetime` can hold that expiry, and ERROR otherwise; it is IMMUTABLE exactly when both `chattr` and `lsattr` work on it |
| Lifecycle.StatusAfterApply | simple_license_mock.py:310-331 | after a completed `apply`, corrected `status` reports the mock with the record's user, server id prefix and plan, IMMUTABLE exactly when both `chattr` and `lsattr` work on it, and the data directory present |
| Lifecycle.ServerIdShown | simple_license_mock.py:319 | the server id `status` shows for a host's mock is the first 16 characters of the digest of its MAC and hostname |
| Lifecycle.StatusAfterRemove | simple_license_mock.py:259-375 | after a completed `remove`, `status` reports the backup exactly when there was one, NOT FOUND for `userInfo.json` when there was no backup, the license cache NOT FOUND unless it was stuck immutable, and the data directory as before |
| Lifecycle.FixUserInfo | simple_license_mock.py:404-415 | `fix` makes a mutable mock `userInfo.json` read-only and leaves any other one unchanged |
| Lifecycle.FixPluginCache | simple_license_mock.py:417-423 | `fix` makes the plugin cache `644` unless it is immutable |
| Lifecycle.FixFrame | simple_license_mock.py:393-425 | `fix` touches no other file |
| Lifecycle.FixIdempotent | simple_license_mock.py:393-425 | a second `fix` changes nothing |
| Lifecycle.FixThenDirStatus | simple_license_mock.py:377-389 | after `fix`, an existing data directory is reported WRITABLE, and a missing one is not reported |
| Lifecycle.FixThenStatus | simple_license_mock.py:322-331 | with the corrected attribute check, after `fix` a mutable mock `userInfo.json` is reported READONLY |
| Lifecycle.MockStatusAsWritten | simple_license_mock.py:322-324 | as written, `status` reports any mock `userInfo.json` IMMUTABLE exactly when `lsattr` runs, whatever its attribute and bits |
| Lifecycle.FixThenStatusAsWritten | simple_license_mock.py:322-331 | as written, after `fix` the same mock is reported IMMUTABLE exactly when `lsattr` runs |

## Left out

- The host lookups (`get_mac_address`, `get_hostname`, `get_cpu_info`, lines 26-64) read the system. `Identity.Host` carries their results, fallbacks included.
- MD5 is not modelled. It is a parameter: any function to 32 lower-case hex characters.
- `time.time()` is not modelled. Each reading is a field of `Token.Clock`, and `status` takes the whole seconds as `now`. An integer exceeds a float exactly when it exceeds the float's floor.
- `json.dump(userinfo, indent=2)` is modelled as storing the document value. Its layout and `json.load` of it are not modelled. The license-cache files hold plain decimal text (`Plain`); `json.load` of such text gives an `int`, on which the `'token' in` test of `status` and the `'is_mock' in` test of `fix` raise `TypeError`, so a `userInfo.json` holding it is reported as an error and left alone, as any `Plain` content is. That `Plain` holds only text `json.load` rejects or reads as a number is an assumption the type does not enforce: Controller.UserInfoStatus, Controller.IsMockDoc and Controller.ReadInt rely on it, and `Plain` text that is a JSON string (such as `"abc"`) would be read differently by the tool.
- Controller.Apply takes the record as a parameter. The tool always passes `generate_mock_userinfo()`, which is `Token.MockUserInfo`; `Lifecycle.MockDocToken` states what that record carries.
- All printed messages are left out, including those of `status`, the summary lines of `apply` and the `datetime` formatting of the expiry. A `status` report is a value.
- `main` (lines 427-450) is left out. It only dispatches on the first argument.
- `generate_plugin_cache` (lines 192-211) is never called. `generate_plugin_cache_writable` (lines 213-217) only prints.
- `lsattr` output is modelled as the ext4 field with only the `e` flag and the immutable flag. Other flags (`a`, `d`, …) would add letters; for a regular file none of them lowers to `i` (the `I` flag, which would, is set only on directories).
- JSON numbers with a fraction or an exponent (Python floats) are not modelled: `Json.Value` has integers only. A float where the tool reads a server id would take the same ERROR path as an integer does.
- Concurrency, symlinks and non-root permission failures are left out.
- `chattr +i` and `chattr -i` share one outcome per path (`Env.chattr`), because both need the same capability and the same filesystem support; `lsattr` has its own (`Env.lsattr`).
- Controller.CacheStatus: the local time zone is one fixed offset from UTC (`Env.utcOffset`); daylight-saving changes near the ends of the `datetime` range are not modelled.
- `str.lower` and `str.strip` are modelled on ASCII. `int()` is modelled without underscores or non-ASCII digits.

## Findings

| source | as written | input that shows it | evidently intended | confidence | as-written member | corrected member |
|---|---|---|---|---|---|---|
| simple_license_mock.py:94-103 | `'i' in result.stdout.lower()` searches the whole `lsattr` line, which ends with the path | a mock `userInfo.json` without the immutable attribute, on a system where `lsattr` runs: the `I` of `userInfo` lowers to `i` and status prints IMMUTABLE | look for `i` in the attribute field only | not executed | Lifecycle.StatusOverclaims | Lifecycle.ProtectionCorrected |
| simple_license_mock.py:219-225 | `backup_original` copies any existing `userInfo.json` when there is no backup, including the mock of an earlier `apply` | a system with no `userInfo.json` and no backup: `apply` twice, then `remove`, leaves the first mock in place instead of deleting it | never take a file carrying `is_mock` for the original | not executed | Lifecycle.DoubleApplyKeepsMock | Lifecycle.DoubleApplyThenRemove |

=== FILE: base64url.dfy ===
/** The URL- and filename-safe base64 alphabet of RFC 4648 section 5:
    `base64.urlsafe_b64encode` (padded, section 4 padding rules), the
    unpadded form the token uses, and a decoder for the unpadded form. */
module Base64Url {
  import opened Text

  /** The 6-bit value `v` as a character of the alphabet. */
  function Sym(v: int): (c: char)
    requires 0 <= v < 64
    ensures IsSym(c)
  {
    if v < 26 then ('A' as int + v) as char
    else if v < 52 then ('a' as int + (v - 26)) as char
    else if v < 62 then ('0' as int + (v - 52)) as char
    else if v == 62 then '-'
    else '_'
  }

  /** `A-Z a-z 0-9 - _`: the 64 characters of the alphabet. */
  predicate IsSym(c: char)
  {
    ('A' <= c <= 'Z') || ('a' <= c <= 'z') || ('0' <= c <= '9') || c == '-' || c == '_'
  }

  predicate AllSym(s: string)
  {
    forall i | 0 <= i < |s| :: IsSym(s[i])
  }

  /** The 6-bit value of an alphabet character. */
  function Val(c: char): (v: int)
    requires IsSym(c)
    ensures 0 <= v < 64 && Sym(v) == c
  {
    if 'A' <= c <= 'Z' then c as int - 'A' as int
    else if 'a' <= c <= 'z' then c as int - 'a' as int + 26
    else if '0' <= c <= '9' then c as int - '0' as int + 52
    else if c == '-' then 62
    else 63
  }

  lemma ValSym(v: int)
    requires 0 <= v < 64
    ensures Val(Sym(v)) == v
  {
  }

  // ---------------------------------------------------------------------
  // Encoding

  /** The four characters of one complete 24-bit group. */
  function Quad(x: byte, y: byte, z: byte): string
  {
    var a, b, c := x as int, y as int, z as int;
    [Sym(a / 4), Sym((a % 4) * 16 + b / 16), Sym((b % 16) * 4 + c / 64), Sym(c % 64)]
  }

  /** The encoding without its `=` padding: two characters for a final
      single byte, three for a final pair. */
  function Unpadded(b: seq<byte>): (r: string)
    ensures AllSym(r)
    decreases |b|
  {
    if |b| == 0 then ""
    else if |b| == 1 then
      [Sym(b[0] as int / 4), Sym((b[0] as int % 4) * 16)]
    else if |b| == 2 then
      [Sym(b[0] as int / 4), Sym((b[0] as int % 4) * 16 + b[1] as int / 16), Sym((b[1] as int % 16) * 4)]
    else Quad(b[0], b[1], b[2]) + Unpadded(b[3..])
  }

  /** Number of `=` that complete the final quantum. */
  function PadCount(n: nat): nat
  {
    if n % 3 == 0 then 0 else if n % 3 == 1 then 2 else 1
  }

  /** `base64.urlsafe_b64encode(b)`, with padding. */
  function Encode(b: seq<byte>): string
  {
    Unpadded(b) + Repeat('=', PadCount(|b|))
  }

  /** `base64.urlsafe_b64encode(b).decode().rstrip('=')`. */
  function EncodeNoPad(b: seq<byte>): string
  {
    RStrip(Encode(b), '=')
  }

  /** The characters [0, 2, 3] a final group of 0, 1 or 2 bytes needs. */
  function TailLength(n: nat): nat
  {
    if n % 3 == 0 then 0 else if n % 3 == 1 then 2 else 3
  }

  lemma {:induction false} UnpaddedLength(b: seq<byte>)
    ensures |Unpadded(b)| == 4 * (|b| / 3) + TailLength(|b|)
    decreases |b|
  {
    if |b| >= 3 {
      UnpaddedLength(b[3..]);
    }
  }

  /** Stripping the padding recovers the unpadded encoding exactly: the
      alphabet has no `=`. */
  lemma NoPadIsUnpadded(b: seq<byte>)
    ensures EncodeNoPad(b) == Unpadded(b)
  {
    var u := Unpadded(b);
    RStripAppended(u, '=', PadCount(|b|));
    assert |u| == 0 || u[|u| - 1] != '=' by {
      if |u| > 0 { assert IsSym(u[|u| - 1]); }
    }
  }

  /** Length and alphabet of the unpadded encoding of `n` bytes:
      4·(n div 3) + [0,2,3][n mod 3] characters from `A-Z a-z 0-9 - _`. */
  lemma EncodeNoPadShape(b: seq<byte>)
    ensures |EncodeNoPad(b)| == 4 * (|b| / 3) + TailLength(|b|)
    ensures AllSym(EncodeNoPad(b))
    ensures '=' !in EncodeNoPad(b) && '.' !in EncodeNoPad(b)
  {
    NoPadIsUnpadded(b);
    UnpaddedLength(b);
    var u := Unpadded(b);
    assert '=' !in u && '.' !in u by {
      forall i | 0 <= i < |u| ensures u[i] != '=' && u[i] != '.' {
        assert IsSym(u[i]);
      }
    }
  }

  /** The padded encoding is always a whole number of 4-character
      quanta, and ends in exactly [0,2,1][n mod 3] `=`. */
  lemma EncodeShape(b: seq<byte>)
    ensures |Encode(b)| == 4 * ((|b| + 2) / 3)
    ensures Encode(b)[..|Encode(b)| - PadCount(|b|)] == Unpadded(b)
    ensures forall i | |Encode(b)| - PadCount(|b|) <= i < |Encode(b)| :: Encode(b)[i] == '='
  {
    UnpaddedLength(b);
    var n := |b|;
    var q := n / 3;
    assert n == 3 * q + n % 3;
    assert (n + 2) / 3 == (if n % 3 == 0 then q else q + 1);
  }

  // ---------------------------------------------------------------------
  // Decoding the unpadded form

  /** Decoding of a string of alphabet characters. Leftover bits of a
      final partial group must be zero, so every accepted string is the
      encoding of exactly one byte string. */
  function DecodeSyms(s: string): (r: Option<seq<byte>>)
    requires AllSym(s)
    decreases |s|
  {
    if |s| == 0 then Some([])
    else if |s| == 1 then None
    else if |s| == 2 then
      var a, b := Val(s[0]), Val(s[1]);
      if b % 16 != 0 then None else Some([(a * 4 + b / 16) as byte])
    else if |s| == 3 then
      var a, b, c := Val(s[0]), Val(s[1]), Val(s[2]);
      if c % 4 != 0 then None
      else Some([(a * 4 + b / 16) as byte, ((b % 16) * 16 + c / 4) as byte])
    else
      match DecodeSyms(s[4..])
      case None => None
      case Some(rest) => Some(Triple(Val(s[0]), Val(s[1]), Val(s[2]), Val(s[3])) + rest)
  }

  /** The three bytes a complete group of four 6-bit values stands for. */
  function Triple(a: int, b: int, c: int, d: int): (r: seq<byte>)
    requires 0 <= a < 64 && 0 <= b < 64 && 0 <= c < 64 && 0 <= d < 64
    ensures |r| == 3
  {
    [(a * 4 + b / 16) as byte, ((b % 16) * 16 + c / 4) as byte, ((c % 4) * 64 + d) as byte]
  }

  /** A complete group round-trips from bytes to characters and back. */
  lemma TripleOfQuad(x: byte, y: byte, z: byte)
    ensures var q := Quad(x, y, z);
      AllSym(q) && Triple(Val(q[0]), Val(q[1]), Val(q[2]), Val(q[3])) == [x, y, z]
  {
    var a, b, c := x as int, y as int, z as int;
    ValSym(a / 4);
    ValSym((a % 4) * 16 + b / 16);
    ValSym((b % 16) * 4 + c / 64);
    ValSym(c % 64);
    SplitJoin3(a, b, c);
  }

  /** ... and from characters to bytes and back. */
  lemma QuadOfTriple(a: int, b: int, c: int, d: int)
    requires 0 <= a < 64 && 0 <= b < 64 && 0 <= c < 64 && 0 <= d < 64
    ensures var t := Triple(a, b, c, d);
      Quad(t[0], t[1], t[2]) == [Sym(a), Sym(b), Sym(c), Sym(d)]
  {
    JoinSplit4(a, b, c, d);
    var t := Triple(a, b, c, d);
    var x, y, z := t[0] as int, t[1] as int, t[2] as int;
    assert x / 4 == a && (x % 4) * 16 + y / 16 == b && (y % 16) * 4 + z / 64 == c && z % 64 == d;
  }

  /** One step of the decoder on a leading complete group. */
  lemma DecodeSymsCons(q: string, rest: string)
    requires |q| == 4 && AllSym(q) && AllSym(rest)
    ensures AllSym(q + rest)
    ensures DecodeSyms(q + rest) ==
      if DecodeSyms(rest).None? then None
      else Some(Triple(Val(q[0]), Val(q[1]), Val(q[2]), Val(q[3])) + DecodeSyms(rest).value)
  {
    var s := q + rest;
    assert s[4..] == rest;
    assert s[0] == q[0] && s[1] == q[1] && s[2] == q[2] && s[3] == q[3];
  }

  /** Decoding of unpadded base64url text; `None` for any character
      outside the alphabet, a dangling single character, or non-zero
      leftover bits. */
  function Decode(s: string): Option<seq<byte>>
  {
    if AllSym(s) then DecodeSyms(s) else None
  }

  /** Splitting three bytes into four 6-bit values and joining them
      again is the identity. */
  lemma SplitJoin3(x: int, y: int, z: int)
    requires 0 <= x < 256 && 0 <= y < 256 && 0 <= z < 256
    ensures var a, b, c, d := x / 4, (x % 4) * 16 + y / 16, (y % 16) * 4 + z / 64, z % 64;
      a * 4 + b / 16 == x && (b % 16) * 16 + c / 4 == y && (c % 4) * 64 + d == z
  {
    var b := (x % 4) * 16 + y / 16;
    assert b / 16 == x % 4 && b % 16 == y / 16;
    var c := (y % 16) * 4 + z / 64;
    assert c / 4 == y % 16 && c % 4 == z / 64;
  }

  /** Joining four 6-bit values into three bytes and splitting them
      again is the identity. */
  lemma JoinSplit4(a: int, b: int, c: int, d: int)
    requires 0 <= a < 64 && 0 <= b < 64 && 0 <= c < 64 && 0 <= d < 64
    ensures var x, y, z := a * 4 + b / 16, (b % 16) * 16 + c / 4, (c % 4) * 64 + d;
      0 <= x < 256 && 0 <= y < 256 && 0 <= z < 256
      && x / 4 == a && (x % 4) * 16 + y / 16 == b && (y % 16) * 4 + z / 64 == c && z % 64 == d
  {
    var x := a * 4 + b / 16;
    assert x / 4 == a && x % 4 == b / 16;
    var y := (b % 16) * 16 + c / 4;
    assert y / 16 == b % 16 && y % 16 == c / 4;
    var z := (c % 4) * 64 + d;
    assert z / 64 == c % 4 && z % 64 == d;
  }

  lemma DecodeUnpadded1(x: byte)
    ensures DecodeSyms(Unpadded([x])) == Some([x])
  {
    var s := Unpadded([x]);
    var a, bb := x as int / 4, (x as int % 4) * 16;
    ValSym(a);
    ValSym(bb);
    SplitJoin3(x as int, 0, 0);
    assert |s| == 2 && Val(s[0]) == a && Val(s[1]) == bb;
    assert bb % 16 == 0 && a * 4 + bb / 16 == x as int;
  }

  lemma DecodeUnpadded2(x: byte, y: byte)
    ensures DecodeSyms(Unpadded([x, y])) == Some([x, y])
  {
    var s := Unpadded([x, y]);
    var a, bb, c := x as int / 4, (x as int % 4) * 16 + y as int / 16, (y as int % 16) * 4;
    ValSym(a);
    ValSym(bb);
    ValSym(c);
    SplitJoin3(x as int, y as int, 0);
    assert |s| == 3 && Val(s[0]) == a && Val(s[1]) == bb && Val(s[2]) == c;
    assert c % 4 == 0;
    assert a * 4 + bb / 16 == x as int && (bb % 16) * 16 + c / 4 == y as int;
  }

  /** The unpadded encoding of three or more bytes starts with the group
      of the first three. */
  lemma UnpaddedGroup(b: seq<byte>)
    requires |b| >= 3
    ensures Unpadded(b) == Quad(b[0], b[1], b[2]) + Unpadded(b[3..])
  {
    var t := b[..3];
    assert b == t + b[3..];
    UnpaddedCons(t, b[3..]);
  }

  /** The first group of three bytes survives encoding and decoding. */
  lemma GroupDecodes(b: seq<byte>)
    requires |b| >= 3
    ensures var q := Quad(b[0], b[1], b[2]);
      AllSym(q) && Triple(Val(q[0]), Val(q[1]), Val(q[2]), Val(q[3])) == b[..3]
  {
    TripleOfQuad(b[0], b[1], b[2]);
  }

  /** The decoder on a leading group of four characters followed by a
      decodable rest. */
  lemma DecodeSymsGroup(q: string, rest: string, t: seq<byte>, tail: seq<byte>)
    requires |q| == 4 && AllSym(q) && AllSym(rest)
    requires Triple(Val(q[0]), Val(q[1]), Val(q[2]), Val(q[3])) == t
    requires DecodeSyms(rest) == Some(tail)
    ensures DecodeSyms(q + rest) == Some(t + tail)
  {
    DecodeSymsCons(q, rest);
  }

  /** The decoder undoes one leading complete group of the encoder. */
  lemma DecodeUnpaddedStep(b: seq<byte>)
    requires |b| >= 3 && DecodeSyms(Unpadded(b[3..])) == Some(b[3..])
    ensures DecodeSyms(Unpadded(b)) == Some(b)
  {
    UnpaddedGroup(b);
    GroupDecodes(b);
    DecodeSymsGroup(Quad(b[0], b[1], b[2]), Unpadded(b[3..]), b[..3], b[3..]);
    assert b == b[..3] + b[3..];
  }

  lemma {:induction false} DecodeUnpadded(b: seq<byte>)
    ensures DecodeSyms(Unpadded(b)) == Some(b)
    decreases |b|
  {
    if |b| >= 3 {
      DecodeUnpadded(b[3..]);
      DecodeUnpaddedStep(b);
    } else if |b| == 2 {
      DecodeUnpadded2(b[0], b[1]);
      assert b == [b[0], b[1]];
    } else if |b| == 1 {
      DecodeUnpadded1(b[0]);
      assert b == [b[0]];
    }
  }

  /** Decoding returns the original bytes. */
  lemma DecodeEncode(b: seq<byte>)
    ensures Decode(EncodeNoPad(b)) == Some(b)
  {
    NoPadIsUnpadded(b);
    DecodeUnpadded(b);
  }

  lemma UnpaddedOfDecoded2(s: string, b: seq<byte>)
    requires |s| == 2 && AllSym(s) && DecodeSyms(s) == Some(b)
    ensures Unpadded(b) == s
  {
    var a, c := Val(s[0]), Val(s[1]);
    JoinSplit4(a, c, 0, 0);
    var x := a * 4 + c / 16;
    assert b == [x as byte];
    assert x / 4 == a && (x % 4) * 16 == c;
    assert Unpadded(b) == [Sym(a), Sym(c)];
  }

  lemma UnpaddedOfDecoded3(s: string, b: seq<byte>)
    requires |s| == 3 && AllSym(s) && DecodeSyms(s) == Some(b)
    ensures Unpadded(b) == s
  {
    var a, c, d := Val(s[0]), Val(s[1]), Val(s[2]);
    JoinSplit4(a, c, d, 0);
    var x, y := a * 4 + c / 16, (c % 16) * 16 + d / 4;
    assert b == [x as byte, y as byte];
    assert x / 4 == a && (x % 4) * 16 + y / 16 == c && (y % 16) * 4 == d;
    assert Unpadded(b) == [Sym(a), Sym(c), Sym(d)];
  }

  /** The unpadded encoding of a leading complete group. */
  lemma UnpaddedCons(t: seq<byte>, rest: seq<byte>)
    requires |t| == 3
    ensures Unpadded(t + rest) == Quad(t[0], t[1], t[2]) + Unpadded(rest)
  {
    var b := t + rest;
    assert b[3..] == rest;
    assert b[0] == t[0] && b[1] == t[1] && b[2] == t[2];
  }

  /** Both pieces of a string of alphabet characters are alphabet strings. */
  lemma AllSymSplit(s: string, k: nat)
    requires AllSym(s) && k <= |s|
    ensures AllSym(s[..k]) && AllSym(s[k..])
  {
    forall i | 0 <= i < |s| - k ensures IsSym(s[k..][i]) {
      assert s[k..][i] == s[i + k];
    }
  }

  /** A four-character group decoded and encoded again is itself. */
  lemma QuadOfDecodedGroup(q: string)
    requires |q| == 4 && AllSym(q)
    ensures var t := Triple(Val(q[0]), Val(q[1]), Val(q[2]), Val(q[3]));
      Quad(t[0], t[1], t[2]) == q
  {
    QuadOfTriple(Val(q[0]), Val(q[1]), Val(q[2]), Val(q[3]));
    assert [Sym(Val(q[0])), Sym(Val(q[1])), Sym(Val(q[2])), Sym(Val(q[3]))] == q;
  }

  lemma {:induction false} UnpaddedOfDecoded(s: string, b: seq<byte>)
    requires AllSym(s) && DecodeSyms(s) == Some(b)
    ensures Unpadded(b) == s
    decreases |s|
  {
    if |s| == 2 {
      UnpaddedOfDecoded2(s, b);
    } else if |s| == 3 {
      UnpaddedOfDecoded3(s, b);
    } else if |s| >= 4 {
      var q, r := s[..4], s[4..];
      assert s == q + r;
      AllSymSplit(s, 4);
      DecodeSymsCons(q, r);
      var rest := DecodeSyms(r).value;
      var t := Triple(Val(q[0]), Val(q[1]), Val(q[2]), Val(q[3]));
      assert b == t + rest;
      UnpaddedOfDecoded(r, rest);
      QuadOfDecodedGroup(q);
      UnpaddedCons(t, rest);
    }
  }

  /** Every string the decoder accepts is the encoding of what it
      decodes to, so encoding and decoding are inverse both ways. */
  lemma EncodeDecode(s: string, b: seq<byte>)
    requires Decode(s) == Some(b)
    ensures EncodeNoPad(b) == s
  {
    NoPadIsUnpadded(b);
    UnpaddedOfDecoded(s, b);
  }
}

=== FILE: controller.dfy ===
/** The four commands (`apply`, `remove`, `status`, `fix`) as functions
    from one filesystem state to the next. Host signals, the clock, the
    digest function and the behaviour of the attribute commands are the
    environment's. */
module Controller {
  import opened Text
  import opened Digest
  import opened Json
  import opened Identity
  import opened Token
  import opened FileSystem

  const DataPath := "/www/server/panel/data"
  const UserInfoPath := "/www/server/panel/data/userInfo.json"
  const BackupPath := "/www/server/panel/data/userInfo.json.backup"
  const PluginCachePath := "/www/server/panel/data/plugin_bin.pl"

  /** Everything one invocation reads from outside the filesystem. */
  datatype Env = Env(
    host: Host,
    md5: Md5,
    clock: Clock,
    chattr: Path -> AttrSupport,  // how `chattr +i` and `chattr -i` behave on each path
    lsattr: Path -> AttrSupport,  // how `lsattr` behaves on each path
    newFileMode: nat,             // mode of a file `open(.., 'w')` creates
    newDirMode: nat,              // mode of a directory `makedirs` creates
    utcOffset: int)               // seconds the local time zone is ahead of UTC

  function CacheFile(env: Env): Path
  {
    CachePath(env.md5, env.host.mac)
  }

  function TimeFile(env: Env): Path
  {
    TimePath(env.md5, env.host.mac)
  }

  /** The five files the tool touches are five different paths. */
  lemma PathsDistinct(env: Env)
    ensures UserInfoPath != BackupPath && UserInfoPath != PluginCachePath && BackupPath != PluginCachePath
    ensures CacheFile(env) != TimeFile(env)
    ensures CacheFile(env) != UserInfoPath && CacheFile(env) != BackupPath && CacheFile(env) != PluginCachePath
    ensures TimeFile(env) != UserInfoPath && TimeFile(env) != BackupPath && TimeFile(env) != PluginCachePath
  {
    assert UserInfoPath[23] != PluginCachePath[23];
    assert CacheFile(env)[1] == 't' && TimeFile(env)[1] == 't';
  }

  /** How a command invocation ended: it ran to its end, or an uncaught
      `OSError` stopped it; `fs` is the state either way. */
  datatype Step = Completed | Aborted(error: FsError)
  datatype Run = Run(fs: Fs, step: Step)


  /** A user-info file the tool itself wrote: JSON with an `is_mock` key
      (`'is_mock' in userinfo`). */
  predicate IsMockDoc(c: Content)
    ensures c.Plain? ==> !IsMockDoc(c)
    ensures c.Doc? && c.value.JObj? ==> (IsMockDoc(c) <==> "is_mock" in c.value.fields)
  {
    c.Doc? && In("is_mock", c.value) == Some(true)
  }

  /** The document `json.dump` writes for a user-info record. */
  function UserInfoDoc(u: UserInfo): Content
  {
    Doc(ToJson(u))
  }

  /** The written document is recognised as the tool's own, carries a
      token, and holds the fields `status` prints. */
  lemma UserInfoDocFields(u: UserInfo)
    ensures var c := UserInfoDoc(u);
      && IsMockDoc(c) && In("token", c.value) == Some(true) && c.value.JObj?
      && {"username", "server_id", "plan", "token"} <= c.value.fields.Keys
      && c.value.fields["username"] == JStr(u.username) && c.value.fields["plan"] == JStr(u.plan)
      && c.value.fields["server_id"] == JStr(u.serverId) && c.value.fields["token"] == JStr(u.token)
  {
    ToJsonFields(u);
  }

  // ---------------------------------------------------------------------
  // apply

  /** `backup_original`: copies `userInfo.json` to the backup only when
      the former exists and the latter does not. As written the copied
      file may be a mock left by an earlier `apply`; corrected, a file
      carrying `is_mock` is never taken for the original. */
  function BackupOriginal(fs: Fs, v: Variant): (r: Fs)
    ensures OnlyChanged(fs, r, BackupPath)
    ensures BackupPath in fs.files ==> r == fs
    ensures BackupPath !in fs.files ==>
      (BackupPath in r.files <==>
        UserInfoPath in fs.files && (v == AsWritten || !IsMockDoc(fs.files[UserInfoPath].content)))
    ensures BackupPath in r.files && BackupPath !in fs.files ==>
      UserInfoPath in fs.files
      && r.files[BackupPath] == File(fs.files[UserInfoPath].content, false, fs.files[UserInfoPath].mode)
  {
    if UserInfoPath in fs.files && BackupPath !in fs.files
      && (v == AsWritten || !IsMockDoc(fs.files[UserInfoPath].content))
    then Copy(fs, UserInfoPath, BackupPath).value
    else fs
  }

  /** `generate_license_cache`: writes the expiry and creation timestamps
      under the MAC-derived key, then tries to make both immutable. A
      cache file left immutable by an earlier run stops the command. */
  function LicenseCache(fs: Fs, env: Env): (r: Run)
    ensures forall p | p != CacheFile(env) && p != TimeFile(env) :: Agree(fs, r.fs, p)
    ensures r.fs.dirs == fs.dirs
    ensures r.step == Completed <==>
      && !(CacheFile(env) in fs.files && fs.files[CacheFile(env)].immutable)
      && !(TimeFile(env) in fs.files && fs.files[TimeFile(env)].immutable)
    ensures r.step.Aborted? ==> Agree(fs, r.fs, TimeFile(env))
    ensures r.step == Completed ==>
      && CacheFile(env) in r.fs.files && TimeFile(env) in r.fs.files
      && r.fs.files[CacheFile(env)].content == Plain(Decimal(env.clock.cacheExpire + OneYear))
      && r.fs.files[TimeFile(env)].content == Plain(Decimal(env.clock.cacheStamp))
      && r.fs.files[CacheFile(env)].immutable == (env.chattr(CacheFile(env)) == Works)
      && r.fs.files[TimeFile(env)].immutable == (env.chattr(TimeFile(env)) == Works)
  {
    var cache, time := CacheFile(env), TimeFile(env);
    PathsDistinct(env);
    match Write(fs, cache, Plain(Decimal(env.clock.cacheExpire + OneYear)), env.newFileMode)
    case Err(e) => Run(fs, Aborted(e))
    case Ok(fs1) =>
      match Write(fs1, time, Plain(Decimal(env.clock.cacheStamp)), env.newFileMode)
      case Err(e) => Run(fs1, Aborted(e))
      case Ok(fs2) =>
        assert Agree(fs1, fs2, cache);
        var fs3 := SetImmutable(fs2, cache, env.chattr(cache)).fs;
        assert Agree(fs2, fs3, time);
        var fs4 := SetImmutable(fs3, time, env.chattr(time)).fs;
        assert Agree(fs3, fs4, cache);
        Run(fs4, Completed)
  }

  /** Writing the user-info record and trying to make the file immutable
      (the `open`/`json.dump` and `set_file_immutable` steps of `apply_mock`). */
  function PlaceUserInfo(fs: Fs, env: Env, u: UserInfo): (r: Result<Fs>)
    ensures r.Ok? <==> !(UserInfoPath in fs.files && fs.files[UserInfoPath].immutable)
    ensures r.Err? ==> r.error == PermissionDenied(UserInfoPath)
    ensures r.Ok? ==>
      && OnlyChanged(fs, r.value, UserInfoPath) && UserInfoPath in r.value.files
      && r.value.files[UserInfoPath] == File(UserInfoDoc(u), env.chattr(UserInfoPath) == Works,
           if UserInfoPath in fs.files then fs.files[UserInfoPath].mode else env.newFileMode)
  {
    match Write(fs, UserInfoPath, UserInfoDoc(u), env.newFileMode)
    case Err(e) => Err(e)
    case Ok(fs1) => Ok(SetImmutable(fs1, UserInfoPath, env.chattr(UserInfoPath)).fs)
  }

  /** `apply_mock` writing the record `u` (the tool passes the one
      `generate_mock_userinfo` builds, `MockUserInfo(env.md5, env.host,
      env.clock)`): make the data directory, back up the original, write
      the record and try to make it immutable, write the cache. Opening
      an immutable `userInfo.json` for writing raises, which ends the
      command; nothing clears the attribute a previous run set. */
  function Apply(fs: Fs, env: Env, u: UserInfo, v: Variant): (r: Run)
    ensures DataPath in r.fs.dirs
    ensures UserInfoPath in fs.files && fs.files[UserInfoPath].immutable ==>
      r == Run(BackupOriginal(MakeDirs(fs, DataPath, env.newDirMode), v), Aborted(PermissionDenied(UserInfoPath)))
  {
    var fs2 := BackupOriginal(MakeDirs(fs, DataPath, env.newDirMode), v);
    match PlaceUserInfo(fs2, env, u)
    case Err(e) => Run(fs2, Aborted(e))
    case Ok(fs3) => LicenseCache(fs3, env)
  }

  // ---------------------------------------------------------------------
  // remove

  /** `os.remove(p)` inside `try`/`except`: a failure leaves the state as
      it was. */
  function TryDelete(fs: Fs, p: Path): (r: Fs)
    ensures OnlyChanged(fs, r, p)
    ensures p !in r.files <==> p !in fs.files || !fs.files[p].immutable
  {
    match Delete(fs, p)
    case Ok(fs1) => fs1
    case Err(_) => fs
  }

  /** One cache file in `remove_mock`: when it exists, clear the attribute
      and delete it; any failure is reported and passed over. */
  function CleanCacheFile(fs: Fs, p: Path, s: AttrSupport): (r: Fs)
    ensures OnlyChanged(fs, r, p)
    ensures p in r.files <==> p in fs.files && fs.files[p].immutable && s != Works
    ensures p in r.files ==> r.files[p] == fs.files[p]
  {
    if p !in fs.files then fs
    else TryDelete(ClearImmutable(fs, p, s).fs, p)
  }

  /** The restore step of `remove_mock`, after the attribute of
      `userInfo.json` was cleared where possible: copy the backup over it,
      or, with no backup, delete it. The copy or delete raises when the
      file is still immutable, which ends the command. */
  function Restore(fs: Fs): (r: Result<Fs>)
    ensures r.Ok? <==> !(UserInfoPath in fs.files && fs.files[UserInfoPath].immutable)
    ensures r.Err? ==> r.error.path == UserInfoPath
    ensures r.Ok? ==> OnlyChanged(fs, r.value, UserInfoPath)
    ensures r.Ok? && BackupPath in fs.files ==>
      UserInfoPath in r.value.files
      && r.value.files[UserInfoPath] == File(fs.files[BackupPath].content, false, fs.files[BackupPath].mode)
    ensures r.Ok? && BackupPath !in fs.files ==> UserInfoPath !in r.value.files
  {
    if BackupPath in fs.files then Copy(fs, BackupPath, UserInfoPath)
    else if UserInfoPath in fs.files then Delete(fs, UserInfoPath)
    else Ok(fs)
  }

  /** `remove_mock`: clear the attribute of `userInfo.json`, restore the
      backup or delete the file, then delete both cache files and the
      plugin cache, passing over any failure of those. The backup is kept. */
  function Remove(fs: Fs, env: Env): (r: Run)
    ensures r.fs.dirs == fs.dirs
    ensures r.step == Completed <==>
      !(UserInfoPath in fs.files && fs.files[UserInfoPath].immutable && env.chattr(UserInfoPath) != Works)
    ensures r.step.Aborted? ==> r.step.error.path == UserInfoPath
    ensures Agree(fs, r.fs, BackupPath)
  {
    PathsDistinct(env);
    var fs1 := if UserInfoPath in fs.files then ClearImmutable(fs, UserInfoPath, env.chattr(UserInfoPath)).fs else fs;
    assert Agree(fs, fs1, BackupPath);
    match Restore(fs1)
    case Err(e) => Run(fs1, Aborted(e))
    case Ok(fs2) =>
      assert Agree(fs1, fs2, BackupPath) && Agree(fs2, CleanCaches(fs2, env), BackupPath);
      Run(CleanCaches(fs2, env), Completed)
  }

  /** The cleaning half of `remove_mock`: both cache files, then the
      plugin cache, each deleted where it can be (see `CleanCachesDeletes`). */
  function CleanCaches(fs: Fs, env: Env): (r: Fs)
    ensures r.dirs == fs.dirs
    ensures forall p | p !in {CacheFile(env), TimeFile(env), PluginCachePath} :: Agree(fs, r, p)
  {
    PathsDistinct(env);
    TryDelete(CleanCacheFiles(fs, env), PluginCachePath)
  }

  /** Each of the three cache files is gone afterwards unless it is
      immutable and, for the two license-cache files, `chattr -i` does not
      work on it. */
  lemma CleanCachesDeletes(fs: Fs, env: Env)
    ensures var r := CleanCaches(fs, env);
      && (CacheFile(env) in r.files <==>
           CacheFile(env) in fs.files && fs.files[CacheFile(env)].immutable && env.chattr(CacheFile(env)) != Works)
      && (TimeFile(env) in r.files <==>
           TimeFile(env) in fs.files && fs.files[TimeFile(env)].immutable && env.chattr(TimeFile(env)) != Works)
      && (PluginCachePath in r.files <==> PluginCachePath in fs.files && fs.files[PluginCachePath].immutable)
  {
    PathsDistinct(env);
    var fs2 := CleanCacheFiles(fs, env);
    assert Agree(fs, fs2, PluginCachePath);
    assert Agree(fs2, CleanCaches(fs, env), CacheFile(env)) && Agree(fs2, CleanCaches(fs, env), TimeFile(env));
  }

  /** The two cache files of `remove_mock`, in turn. */
  function CleanCacheFiles(fs: Fs, env: Env): (r: Fs)
    ensures r.dirs == fs.dirs
    ensures forall p | p !in {CacheFile(env), TimeFile(env)} :: Agree(fs, r, p)
    ensures CacheFile(env) in r.files <==>
      CacheFile(env) in fs.files && fs.files[CacheFile(env)].immutable && env.chattr(CacheFile(env)) != Works
    ensures TimeFile(env) in r.files <==>
      TimeFile(env) in fs.files && fs.files[TimeFile(env)].immutable && env.chattr(TimeFile(env)) != Works
  {
    PathsDistinct(env);
    var fs1 := CleanCacheFile(fs, CacheFile(env), env.chattr(CacheFile(env)));
    assert Agree(fs, fs1, TimeFile(env));
    var fs2 := CleanCacheFile(fs1, TimeFile(env), env.chattr(TimeFile(env)));
    assert Agree(fs1, fs2, CacheFile(env));
    fs2
  }

  // ---------------------------------------------------------------------
  // status

  /** How a file is reported protected: the attribute check first, then
      the permission bits `444`. */
  datatype Protection = Immutable | ReadOnly | Writable(perm: nat)

  /** The `UserInfo:` lines: not found, unreadable (a `json.load` or later
      failure inside the `try`), an original file (no `token`), or the
      mock with the user, the first 16 characters of the server id, the
      plan, and the protection. */
  datatype UserInfoReport =
    | UserInfoMissing
    | UserInfoError
    | UserInfoOriginal
    | UserInfoMock(user: Value, serverIdPrefix: Value, plan: Value, protection: Protection)

  /** The `License Cache:` lines. */
  datatype CacheReport =
    | CacheMissing
    | CacheError
    | CacheExpired
    | CacheActive(expire: int, protection: Protection)

  /** The `Data Directory:` line; nothing is printed for a missing one. */
  datatype DirReport = DirMissing | DirWritable | DirReadOnly | DirOther(perm: nat)

  datatype Report = Report(userInfo: UserInfoReport, cache: CacheReport, backupExists: bool, dataDir: DirReport)

  /** The protection block of `status` for an existing file. */
  function ProtectionOf(fs: Fs, p: Path, s: AttrSupport, v: Variant): (r: Protection)
    requires p in fs.files
    ensures r == ReadOnly ==> PermBits(fs.files[p].mode) == Mode444
    ensures r.Writable? ==> r.perm == PermBits(fs.files[p].mode) != Mode444
  {
    if CheckImmutable(fs, p, s, v) then Immutable
    else if PermBits(fs.files[p].mode) == Mode444 then ReadOnly
    else Writable(PermBits(fs.files[p].mode))
  }

  /** The `'N/A'` default of the `.get` calls. */
  const NotAvailable: Value := JStr("N/A")

  /** The user-info part of `status`. A document that supports `in` but is
      not a dict, or a server id that cannot be sliced, raises inside the
      `try` and is reported as an error. */
  function UserInfoStatus(fs: Fs, env: Env, v: Variant): (r: UserInfoReport)
    ensures r == UserInfoMissing <==> UserInfoPath !in fs.files
    ensures r == UserInfoOriginal <==>
      UserInfoPath in fs.files && fs.files[UserInfoPath].content.Doc?
      && In("token", fs.files[UserInfoPath].content.value) == Some(false)
    ensures r.UserInfoMock? ==>
      UserInfoPath in fs.files && fs.files[UserInfoPath].content.Doc?
      && fs.files[UserInfoPath].content.value.JObj? && "token" in fs.files[UserInfoPath].content.value.fields
    ensures UserInfoPath in fs.files && fs.files[UserInfoPath].content.Doc? ==>
      var doc := fs.files[UserInfoPath].content.value;
      doc.JObj? && "token" in doc.fields
      && ("server_id" in doc.fields ==> doc.fields["server_id"].JStr? || doc.fields["server_id"].JArr?)
      ==> r.UserInfoMock?
  {
    if UserInfoPath !in fs.files then UserInfoMissing
    else match fs.files[UserInfoPath].content
      case Plain(_) => UserInfoError
      case Doc(doc) =>
        match In("token", doc)
        case None => UserInfoError
        case Some(false) => UserInfoOriginal
        case Some(true) =>
          if !doc.JObj? then UserInfoError
          else match Prefix(Get(doc.fields, "server_id", NotAvailable), 16)
            case None => UserInfoError
            case Some(id) =>
              UserInfoMock(Get(doc.fields, "username", NotAvailable), id, Get(doc.fields, "plan", NotAvailable),
                ProtectionOf(fs, UserInfoPath, env.lsattr(UserInfoPath), v))
  }

  /** `int(f.read().strip())` on a file: the tool's own text, or the text
      of a JSON document, which parses only when it is an integer. */
  function ReadInt(c: Content): Option<int>
  {
    match c
    case Plain(text) => ParseInt(text)
    case Doc(JInt(n)) => Some(n)
    case Doc(_) => None
  }

  /** The cache text `apply` writes reads back as the number written. */
  lemma ReadIntDecimal(n: nat)
    ensures ReadInt(Plain(Decimal(n))) == Some(n)
  {
    ParseDecimal(n);
  }

  /** The seconds from the epoch of 0001-01-01 00:00:00 and of
      9999-12-31 23:59:59, the first and last moments a `datetime` holds. */
  const FirstSecond := -62135596800
  const LastSecond := 253402300799

  /** `datetime.fromtimestamp(t)` gives a `datetime` exactly when `t`,
      moved into the local time zone, lies in the years 1 to 9999; outside
      them it raises. */
  predicate Representable(t: int, utcOffset: int)
  {
    FirstSecond <= t + utcOffset <= LastSecond
  }

  /** The cache part of `status` at clock reading `now` (the whole seconds
      of `time.time()`; an integer exceeds a float exactly when it exceeds
      the float's floor). An expiry in the future that `datetime` cannot
      hold raises inside the `try` and is reported as an error. */
  function CacheStatus(fs: Fs, env: Env, now: int, v: Variant): (r: CacheReport)
    ensures r == CacheMissing <==> CacheFile(env) !in fs.files
    ensures r == CacheExpired <==>
      CacheFile(env) in fs.files && ReadInt(fs.files[CacheFile(env)].content).Some?
      && ReadInt(fs.files[CacheFile(env)].content).value <= now
    ensures r.CacheActive? <==>
      CacheFile(env) in fs.files && ReadInt(fs.files[CacheFile(env)].content).Some?
      && ReadInt(fs.files[CacheFile(env)].content).value > now
      && Representable(ReadInt(fs.files[CacheFile(env)].content).value, env.utcOffset)
    ensures r.CacheActive? ==> r.expire == ReadInt(fs.files[CacheFile(env)].content).value
  {
    var cache := CacheFile(env);
    if cache !in fs.files then CacheMissing
    else match ReadInt(fs.files[cache].content)
      case None => CacheError
      case Some(expire) =>
        if expire <= now then CacheExpired
        else if !Representable(expire, env.utcOffset) then CacheError
        else CacheActive(expire, ProtectionOf(fs, cache, env.lsattr(cache), v))
  }

  /** The data-directory part of `status`. */
  function DirStatus(fs: Fs): DirReport
  {
    if DataPath !in fs.dirs then DirMissing
    else
      var perm := PermBits(fs.dirs[DataPath]);
      if perm == Mode755 then DirWritable else if perm == Mode555 then DirReadOnly else DirOther(perm)
  }

  /** `status`: what it reports; it changes nothing. */
  function Status(fs: Fs, env: Env, now: int, v: Variant): Report
  {
    Report(UserInfoStatus(fs, env, v), CacheStatus(fs, env, now, v), BackupPath in fs.files, DirStatus(fs))
  }

  // ---------------------------------------------------------------------
  // fix

  /** `os.chmod(p, mode)` inside `try`/`except`. */
  function TryChmod(fs: Fs, p: Path, mode: nat): (r: Fs)
    ensures OnlyChanged(fs, r, p)
    ensures p in fs.files && !fs.files[p].immutable ==> p in r.files && r.files[p] == fs.files[p].(mode := mode)
    ensures !(p in fs.files && !fs.files[p].immutable) ==> r == fs
  {
    match Chmod(fs, p, mode)
    case Ok(fs1) => fs1
    case Err(_) => fs
  }

  /** `fix_permissions`: make the data directory `755`, make a mock
      `userInfo.json` read-only (`444`), make the plugin cache `644`; each
      step's failure is reported and passed over. */
  function Fix(fs: Fs): (r: Fs)
    ensures DataPath in fs.dirs ==> r.dirs == fs.dirs[DataPath := Mode755]
    ensures DataPath !in fs.dirs ==> r.dirs == fs.dirs
    ensures r.files.Keys == fs.files.Keys
    ensures forall p | p in fs.files ::
      (r.files[p].content == fs.files[p].content && r.files[p].immutable == fs.files[p].immutable)
  {
    var fs1 := match ChmodDir(fs, DataPath, Mode755) case Ok(fs1) => fs1 case Err(_) => fs;
    var fs2 :=
      if UserInfoPath in fs1.files && IsMockDoc(fs1.files[UserInfoPath].content)
      then TryChmod(fs1, UserInfoPath, Mode444) else fs1;
    if PluginCachePath in fs2.files then TryChmod(fs2, PluginCachePath, Mode644) else fs2
  }
}

=== FILE: digest.dfy ===
/** MD5 as the tool uses it: `hashlib.md5(text.encode()).hexdigest()`.
    The digest algorithm itself is not modelled; every function of type
    `Md5` is a candidate, and all the model relies on is the shape of the
    result: 32 lower-case hexadecimal characters. */
module Digest {
  import opened Text

  predicate IsLowerHex(c: char)
  {
    ('0' <= c <= '9') || ('a' <= c <= 'f')
  }

  predicate AllLowerHex(s: string)
  {
    forall i | 0 <= i < |s| :: IsLowerHex(s[i])
  }

  /** The text of a `hexdigest()`: 32 characters from `0-9a-f`. */
  type HexDigest = s: string | |s| == 32 && AllLowerHex(s)
    witness Repeat('0', 32)

  /** A digest function from text to hex digest, `md5(text)`. */
  type Md5 = string -> HexDigest

  /** Hex digests are ASCII, so `encode()` gives one byte per character. */
  lemma HexIsAscii(s: string)
    requires AllLowerHex(s)
    ensures IsAscii(s)
  {
    forall i | 0 <= i < |s| ensures s[i] as int < 0x80 {
      assert IsLowerHex(s[i]);
    }
  }

  lemma AllLowerHexConcat(a: string, b: string)
    requires AllLowerHex(a) && AllLowerHex(b)
    ensures AllLowerHex(a + b)
  {
    forall i | 0 <= i < |a + b| ensures IsLowerHex((a + b)[i]) {
      if i < |a| { assert (a + b)[i] == a[i]; } else { assert (a + b)[i] == b[i - |a|]; }
    }
  }
}

=== FILE: filesystem.dfy ===
/** The filesystem the tool acts on, as a map from path to file record,
    with the Python primitives it calls (`open(..., 'w')`, `shutil.copy2`,
    `os.remove`, `os.chmod`, `os.makedirs`) and the attribute commands
    (`chattr +i`, `chattr -i`, `lsattr`) wrapped as the tool wraps them.
    The tool runs as root: permission bits never stop it, the immutable
    attribute does. */
module FileSystem {
  import opened Text
  import opened Json

  type Path = string

  /** What a file holds, as far as the tool reads it back: a JSON document
      (what `json.load` returns), or plain text that `json.load` either
      rejects or turns into a number, such as the decimal timestamps of the
      cache files. On a number the `in` tests of `status` and `fix` raise
      `TypeError`, so either way such text is no user-info document. */
  datatype Content = Doc(value: Value) | Plain(text: string)

  /** A regular file: content, the immutable attribute, permission bits. */
  datatype File = File(content: Content, immutable: bool, mode: nat)

  /** Regular files and directories (with their permission bits). */
  datatype Fs = Fs(files: map<Path, File>, dirs: map<Path, nat>)

  /** The `OSError`s the primitives raise. */
  datatype FsError = NotFound(path: Path) | PermissionDenied(path: Path)

  datatype Result<+T> = Ok(value: T) | Err(error: FsError)

  const Mode444: nat := 0x124  // 0o444
  const Mode644: nat := 0x1A4  // 0o644
  const Mode555: nat := 0x16D  // 0o555
  const Mode755: nat := 0x1ED  // 0o755

  /** The last three octal digits of a mode, `oct(st_mode)[-3:]`. */
  function PermBits(mode: nat): nat
  {
    mode % 0x200
  }

  /** `p` is present in both systems with the same record, or in neither. */
  predicate Agree(fs1: Fs, fs2: Fs, p: Path)
  {
    (p in fs1.files <==> p in fs2.files) && (p in fs1.files ==> fs1.files[p] == fs2.files[p])
  }

  /** `fs2` differs from `fs1` at most at `p`. */
  ghost predicate OnlyChanged(fs1: Fs, fs2: Fs, p: Path)
  {
    fs1.dirs == fs2.dirs && forall q | q != p :: Agree(fs1, fs2, q)
  }

  /** `open(p, 'w').write(...)`: truncates an existing file (keeping its
      mode and attribute) or creates one with `newMode`; an immutable file
      cannot be opened for writing. */
  function Write(fs: Fs, p: Path, c: Content, newMode: nat): (r: Result<Fs>)
    ensures r.Ok? <==> !(p in fs.files && fs.files[p].immutable)
    ensures r.Ok? ==>
      && OnlyChanged(fs, r.value, p) && p in r.value.files
      && r.value.files[p].content == c && !r.value.files[p].immutable
      && r.value.files[p].mode == (if p in fs.files then fs.files[p].mode else newMode)
    ensures r.Err? ==> r.error == PermissionDenied(p)
  {
    if p in fs.files && fs.files[p].immutable then Err(PermissionDenied(p))
    else if p in fs.files then Ok(fs.(files := fs.files[p := fs.files[p].(content := c)]))
    else Ok(fs.(files := fs.files[p := File(c, false, newMode)]))
  }

  /** `shutil.copy2(src, dst)`: content and permission bits are copied,
      the immutable attribute is not (Linux `copystat` has no flags call). */
  function Copy(fs: Fs, src: Path, dst: Path): (r: Result<Fs>)
    ensures r.Ok? <==> src in fs.files && !(dst in fs.files && fs.files[dst].immutable)
    ensures r.Ok? ==>
      && OnlyChanged(fs, r.value, dst) && dst in r.value.files
      && r.value.files[dst] == File(fs.files[src].content, false, fs.files[src].mode)
  {
    if src !in fs.files then Err(NotFound(src))
    else if dst in fs.files && fs.files[dst].immutable then Err(PermissionDenied(dst))
    else Ok(fs.(files := fs.files[dst := File(fs.files[src].content, false, fs.files[src].mode)]))
  }

  /** `os.remove(p)`. */
  function Delete(fs: Fs, p: Path): (r: Result<Fs>)
    ensures r.Ok? <==> p in fs.files && !fs.files[p].immutable
    ensures r.Ok? ==> OnlyChanged(fs, r.value, p) && p !in r.value.files
  {
    if p !in fs.files then Err(NotFound(p))
    else if fs.files[p].immutable then Err(PermissionDenied(p))
    else Ok(fs.(files := fs.files - {p}))
  }

  /** `os.chmod(p, mode)` on a regular file; refused on an immutable one. */
  function Chmod(fs: Fs, p: Path, mode: nat): (r: Result<Fs>)
    ensures r.Ok? <==> p in fs.files && !fs.files[p].immutable
    ensures r.Ok? ==>
      && OnlyChanged(fs, r.value, p) && p in r.value.files
      && r.value.files[p] == fs.files[p].(mode := mode)
  {
    if p !in fs.files then Err(NotFound(p))
    else if fs.files[p].immutable then Err(PermissionDenied(p))
    else Ok(fs.(files := fs.files[p := fs.files[p].(mode := mode)]))
  }

  /** `os.chmod(d, mode)` on a directory. */
  function ChmodDir(fs: Fs, d: Path, mode: nat): (r: Result<Fs>)
    ensures r.Ok? <==> d in fs.dirs
    ensures r.Ok? ==> r.value.files == fs.files && r.value.dirs == fs.dirs[d := mode]
  {
    if d !in fs.dirs then Err(NotFound(d)) else Ok(fs.(dirs := fs.dirs[d := mode]))
  }

  /** `os.makedirs(d, exist_ok=True)`: only `d` itself is tracked. */
  function MakeDirs(fs: Fs, d: Path, mode: nat): (r: Fs)
    ensures r.files == fs.files && d in r.dirs
    ensures d in fs.dirs ==> r == fs
  {
    if d in fs.dirs then fs else fs.(dirs := fs.dirs[d := mode])
  }

  // ---------------------------------------------------------------------
  // Attribute commands

  /** How `chattr`/`lsattr` behave on a path: they run and succeed, they
      run and exit non-zero (unsupported filesystem, no privilege), or
      the program cannot be started at all. */
  datatype AttrSupport = Works | Refused | ToolMissing

  /** The file system after an attribute command, and the wrapper's
      boolean result. */
  datatype AttrRun = AttrRun(fs: Fs, ok: bool)

  /** `set_file_immutable`: true exactly when `chattr +i` succeeded, which
      is exactly when the attribute is now set by this call. */
  function SetImmutable(fs: Fs, p: Path, s: AttrSupport): (r: AttrRun)
    ensures r.ok <==> s == Works && p in fs.files
    ensures r.ok ==>
      && OnlyChanged(fs, r.fs, p) && p in r.fs.files
      && r.fs.files[p] == fs.files[p].(immutable := true)
    ensures !r.ok ==> r.fs == fs
  {
    if s == Works && p in fs.files then
      AttrRun(fs.(files := fs.files[p := fs.files[p].(immutable := true)]), true)
    else AttrRun(fs, false)
  }

  /** `remove_file_immutable`: a non-zero exit still counts as success;
      only a `chattr` that cannot be started reports failure. */
  function ClearImmutable(fs: Fs, p: Path, s: AttrSupport): (r: AttrRun)
    ensures r.ok <==> s != ToolMissing
    ensures s == Works && p in fs.files ==>
      && OnlyChanged(fs, r.fs, p) && p in r.fs.files
      && r.fs.files[p] == fs.files[p].(immutable := false)
    ensures !(s == Works && p in fs.files) ==> r.fs == fs
  {
    if s == Works && p in fs.files then
      AttrRun(fs.(files := fs.files[p := fs.files[p].(immutable := false)]), true)
    else AttrRun(fs, s != ToolMissing)
  }

  /** The attribute field `lsattr` prints for a file on ext4: the
      immutable flag in its column, the extents flag `e`, dashes elsewhere. */
  function AttrField(f: File): (field: string)
    ensures |field| == 22
    ensures forall k | 0 <= k < 22 :: field[k] == 'i' <==> (k == 4 && f.immutable)
    ensures 'I' !in field
  {
    Repeat('-', 4) + [if f.immutable then 'i' else '-'] + Repeat('-', 9) + ['e'] + Repeat('-', 7)
  }

  /** The standard output of `lsattr p`: the field, a space, the path. */
  function LsattrOutput(f: File, p: Path): string
  {
    AttrField(f) + " " + p + "\n"
  }

  /** Lowered, the attribute field has an `i` exactly for an immutable file. */
  lemma AttrFieldHasI(f: File)
    ensures 'i' in Lower(AttrField(f)) <==> f.immutable
  {
    var field := AttrField(f);
    if f.immutable {
      assert field[4] == 'i';
    }
  }

  /** Lowered, the whole `lsattr` output has an `i` exactly when the file
      is immutable or its path has an `i` or an `I`. */
  lemma LsattrHasI(f: File, p: Path)
    ensures 'i' in Lower(LsattrOutput(f, p)) <==> f.immutable || 'i' in p || 'I' in p
  {
    var field := AttrField(f);
    var rest := " " + p + "\n";
    var out := LsattrOutput(f, p);
    AttrFieldHasI(f);
    assert out == field + rest;
    assert 'i' in rest <==> 'i' in p;
    assert 'I' in rest <==> 'I' in p;
  }

  /** Whether a member follows the tool as written or with an evident
      bug of it corrected; see the findings in the README. */
  datatype Variant = AsWritten | Corrected

  /** `check_file_immutable`. As written, it searches the whole lowered
      output, path included, for `i`; corrected, it searches the attribute
      field only. A failing or missing `lsattr`, or a missing file (non-zero
      exit), gives false. */
  function CheckImmutable(fs: Fs, p: Path, s: AttrSupport, v: Variant): (r: bool)
    ensures r ==> s == Works && p in fs.files
    ensures v == Corrected ==> (r <==> s == Works && p in fs.files && fs.files[p].immutable)
    ensures v == AsWritten ==>
      (r <==> s == Works && p in fs.files && (fs.files[p].immutable || 'i' in p || 'I' in p))
  {
    if s != Works || p !in fs.files then false
    else
      AttrFieldHasI(fs.files[p]);
      LsattrHasI(fs.files[p], p);
      match v
      case AsWritten => 'i' in Lower(LsattrOutput(fs.files[p], p))
      case Corrected => 'i' in Lower(AttrField(fs.files[p]))
  }
}

=== FILE: identity.dfy ===
/** The host fingerprint: the server id the mock credentials are bound
    to, and the license-cache key the panel derives from the MAC address. */
module Identity {
  import opened Text
  import opened Digest

  /** The three host signals, already resolved by the lookups (with their
      fixed fallbacks) that read them from the system. */
  datatype Host = Host(mac: string, hostname: string, cpuModel: string)

  /** `generate_server_id`: `md5(mac + hostname) + md5(cpu_model)`. */
  function ServerId(md5: Md5, h: Host): (id: string)
    ensures |id| == 64 && AllLowerHex(id)
    ensures id[..32] == md5(h.mac + h.hostname) && id[32..] == md5(h.cpuModel)
  {
    var a, b := md5(h.mac + h.hostname), md5(h.cpuModel);
    AllLowerHexConcat(a, b);
    assert (a + b)[..32] == a && (a + b)[32..] == b;
    a + b
  }

  /** Two hosts share a server id exactly when both of their digests
      agree: the id loses nothing of either half. */
  lemma ServerIdSameIff(md5: Md5, h1: Host, h2: Host)
    ensures ServerId(md5, h1) == ServerId(md5, h2) <==>
      md5(h1.mac + h1.hostname) == md5(h2.mac + h2.hostname) && md5(h1.cpuModel) == md5(h2.cpuModel)
  {
    var s1, s2 := ServerId(md5, h1), ServerId(md5, h2);
    if s1 == s2 {
      assert s1[..32] == s2[..32] && s1[32..] == s2[32..];
    }
  }

  const CacheKeyPrefix := "bmac_"

  /** The license-cache token `"bmac_" + md5(mac)`; it depends on the MAC
      address alone. */
  function CacheKey(md5: Md5, mac: string): (key: string)
    ensures |key| == 37 && key[..5] == CacheKeyPrefix
    ensures key[5..] == md5(mac) && AllLowerHex(key[5..])
  {
    var k := CacheKeyPrefix + md5(mac);
    assert k[5..] == md5(mac);
    k
  }

  /** The digest a cache key carries. */
  function KeyDigest(key: string): string
  {
    if |key| >= 5 then key[5..] else key
  }

  /** Cache keys of two MAC addresses coincide exactly when their digests
      do, and the key can be read back to its digest. */
  lemma CacheKeySameIff(md5: Md5, mac1: string, mac2: string)
    ensures KeyDigest(CacheKey(md5, mac1)) == md5(mac1)
    ensures CacheKey(md5, mac1) == CacheKey(md5, mac2) <==> md5(mac1) == md5(mac2)
  {
  }

  /** `/tmp/<key>`: the expiry timestamp file. */
  function CachePath(md5: Md5, mac: string): (p: string)
    ensures |p| == 42 && p[..5] == "/tmp/" && p[5..] == CacheKey(md5, mac)
  {
    var p := "/tmp/" + CacheKey(md5, mac);
    assert p[5..] == CacheKey(md5, mac);
    p
  }

  /** `/tmp/<key>.time`: the creation timestamp file. */
  function TimePath(md5: Md5, mac: string): (p: string)
    ensures |p| == 47 && p[..42] == CachePath(md5, mac) && p[42..] == ".time"
  {
    var p := CachePath(md5, mac) + ".time";
    assert p[..42] == CachePath(md5, mac) && p[42..] == ".time";
    p
  }

  /** Two hosts share a cache file exactly when the digests of their MAC
      addresses agree, whatever their hostnames and CPUs; an expiry file is
      never a `.time` file. */
  lemma CachePathsOfMac(md5: Md5, h1: Host, h2: Host)
    ensures CachePath(md5, h1.mac) != TimePath(md5, h2.mac)
    ensures CachePath(md5, h1.mac) == CachePath(md5, h2.mac) <==> md5(h1.mac) == md5(h2.mac)
  {
    var c1, c2 := CachePath(md5, h1.mac), CachePath(md5, h2.mac);
    if c1 == c2 {
      assert c1[5..] == c2[5..];
      assert CacheKey(md5, h1.mac)[5..] == CacheKey(md5, h2.mac)[5..];
    }
  }
}

=== FILE: json.dfy ===
/** JSON documents as `json.load` returns them, and the two Python
    operations the tool applies to them: `key in doc` and `doc.get`. */
module Json {
  import opened Text

  /** A decoded JSON value: `None`, `bool`, `int`, `str`, `list`, `dict`. */
  datatype Value =
    | JNull
    | JBool(b: bool)
    | JInt(n: int)
    | JStr(s: string)
    | JArr(items: seq<Value>)
    | JObj(fields: map<string, Value>)

  /** Python `key in doc`: a key of a dict, an element of a list, a
      substring of a str; `None` where Python raises `TypeError`
      (`None`, `bool` and `int` do not support `in`). */
  function In(key: string, doc: Value): Option<bool>
  {
    match doc
    case JObj(m) => Some(key in m)
    case JArr(items) => Some(JStr(key) in items)
    case JStr(s) => Some(IsSubstring(key, s))
    case _ => None
  }

  /** `doc.get(key, default)` on a dict. */
  function Get(fields: map<string, Value>, key: string, default: Value): (v: Value)
    ensures key in fields ==> v == fields[key]
    ensures key !in fields ==> v == default
  {
    if key in fields then fields[key] else default
  }

  /** Python `v[:n]`: defined on `str` and `list`, `TypeError` otherwise. */
  function Prefix(v: Value, n: nat): Option<Value>
  {
    match v
    case JStr(s) => Some(JStr(Take(s, n)))
    case JArr(items) => Some(JArr(if n <= |items| then items[..n] else items))
    case _ => None
  }

  /** Slicing a string at the length of its first part gives that part
      back. */
  lemma PrefixAppend(a: string, b: string)
    ensures Prefix(JStr(a + b), |a|) == Some(JStr(a))
  {
    assert (a + b)[..|a|] == a;
  }

  /** A dict built from key/value pairs in order, as a Python dict display
      is: a later pair with the same key replaces an earlier one. */
  function FromPairs(pairs: seq<(string, Value)>): map<string, Value>
    decreases |pairs|
  {
    if |pairs| == 0 then map[]
    else FromPairs(pairs[..|pairs| - 1])[pairs[|pairs| - 1].0 := pairs[|pairs| - 1].1]
  }

  /** A key that no later pair repeats maps to its own pair's value. */
  lemma {:induction false} FromPairsLookup(pairs: seq<(string, Value)>, i: nat)
    requires i < |pairs|
    requires forall j | i < j < |pairs| :: pairs[j].0 != pairs[i].0
    ensures pairs[i].0 in FromPairs(pairs) && FromPairs(pairs)[pairs[i].0] == pairs[i].1
    decreases |pairs|
  {
    if i < |pairs| - 1 {
      var init := pairs[..|pairs| - 1];
      assert forall j | i < j < |init| :: init[j].0 != init[i].0 by {
        forall j | i < j < |init| ensures init[j].0 != init[i].0 {
          assert init[j] == pairs[j] && init[i] == pairs[i];
        }
      }
      FromPairsLookup(init, i);
    }
  }

  /** The keys of the dict are exactly the keys of the pairs. */
  lemma {:induction false} FromPairsKeys(pairs: seq<(string, Value)>, k: string)
    ensures k in FromPairs(pairs) <==> exists i | 0 <= i < |pairs| :: pairs[i].0 == k
    decreases |pairs|
  {
    if |pairs| > 0 {
      var init := pairs[..|pairs| - 1];
      FromPairsKeys(init, k);
      if exists i | 0 <= i < |init| :: init[i].0 == k {
        var i :| 0 <= i < |init| && init[i].0 == k;
        assert pairs[i].0 == k;
      }
      if exists i | 0 <= i < |pairs| :: pairs[i].0 == k {
        var i :| 0 <= i < |pairs| && pairs[i].0 == k;
        if i < |init| {
          assert init[i].0 == k;
        }
      }
    }
  }

  /** On a dict display, `key in` is true exactly when one of its pairs
      has that key. */
  lemma InFromPairs(pairs: seq<(string, Value)>, k: string)
    ensures In(k, JObj(FromPairs(pairs))) == Some(exists i | 0 <= i < |pairs| :: pairs[i].0 == k)
  {
    FromPairsKeys(pairs, k);
  }

  /** A JSON array of strings. */
  function Strings(ss: seq<string>): (items: seq<Value>)
    ensures |items| == |ss|
    ensures forall i | 0 <= i < |ss| :: items[i] == JStr(ss[i])
    decreases |ss|
  {
    if |ss| == 0 then [] else [JStr(ss[0])] + Strings(ss[1..])
  }
}

=== FILE: lifecycle.dfy ===
/** What the commands promise across invocations: what `apply` keeps and
    writes, what `remove` restores, that one undoes the other, what
    `status` reports afterwards, and what `fix` changes. */
module Lifecycle {
  import opened Text
  import opened Json
  import opened Digest
  import opened Identity
  import opened Token
  import opened FileSystem
  import opened Controller

  // ---------------------------------------------------------------------
  // apply

  /** A backup that exists is never overwritten by `apply`. */
  lemma ApplyKeepsBackup(fs: Fs, env: Env, u: UserInfo, v: Variant)
    requires BackupPath in fs.files
    ensures Agree(fs, Apply(fs, env, u, v).fs, BackupPath)
  {
    PathsDistinct(env);
    var fs2 := BackupOriginal(MakeDirs(fs, DataPath, env.newDirMode), v);
    match PlaceUserInfo(fs2, env, u)
    case Err(_) =>
    case Ok(fs3) =>
      assert Agree(fs2, fs3, BackupPath);
      assert Agree(fs3, LicenseCache(fs3, env).fs, BackupPath);
  }

  /** Without a backup, `apply` makes one exactly when there is a
      `userInfo.json` to copy (and, corrected, it is not the tool's own
      mock); the backup then has the file's content and mode. */
  lemma ApplyBacksUp(fs: Fs, env: Env, u: UserInfo, v: Variant)
    requires BackupPath !in fs.files
    ensures var r := Apply(fs, env, u, v);
      && (BackupPath in r.fs.files <==>
           UserInfoPath in fs.files && (v == AsWritten || !IsMockDoc(fs.files[UserInfoPath].content)))
      && (BackupPath in r.fs.files ==>
           r.fs.files[BackupPath] == File(fs.files[UserInfoPath].content, false, fs.files[UserInfoPath].mode))
  {
    PathsDistinct(env);
    var fs2 := BackupOriginal(MakeDirs(fs, DataPath, env.newDirMode), v);
    match PlaceUserInfo(fs2, env, u)
    case Err(_) =>
    case Ok(fs3) =>
      assert Agree(fs2, fs3, BackupPath);
      assert Agree(fs3, LicenseCache(fs3, env).fs, BackupPath);
  }

  /** After `apply`, `userInfo.json` is immutable only if `chattr +i`
      works on it or it was immutable before. */
  lemma ApplyLocksOnlyByChattr(fs: Fs, env: Env, u: UserInfo, v: Variant)
    ensures var r := Apply(fs, env, u, v);
      UserInfoPath in r.fs.files && r.fs.files[UserInfoPath].immutable ==>
        env.chattr(UserInfoPath) == Works || (UserInfoPath in fs.files && fs.files[UserInfoPath].immutable)
  {
    if !(UserInfoPath in fs.files && fs.files[UserInfoPath].immutable) {
      ApplyWritesUserInfo(fs, env, u, v);
    }
  }

  /** Unless `userInfo.json` is already immutable, `apply` writes the
      record there, immutable exactly when `chattr +i` works on it, keeping
      an existing file's mode. */
  lemma ApplyWritesUserInfo(fs: Fs, env: Env, u: UserInfo, v: Variant)
    requires !(UserInfoPath in fs.files && fs.files[UserInfoPath].immutable)
    ensures var r := Apply(fs, env, u, v);
      && UserInfoPath in r.fs.files
      && r.fs.files[UserInfoPath] == File(UserInfoDoc(u), env.chattr(UserInfoPath) == Works,
           if UserInfoPath in fs.files then fs.files[UserInfoPath].mode else env.newFileMode)
  {
    PathsDistinct(env);
    var fs2 := BackupOriginal(MakeDirs(fs, DataPath, env.newDirMode), v);
    assert Agree(fs, fs2, UserInfoPath);
    var fs3 := PlaceUserInfo(fs2, env, u).value;
    assert Agree(fs3, LicenseCache(fs3, env).fs, UserInfoPath);
  }

  /** `apply` runs to its end exactly when none of `userInfo.json` and the
      two cache files is left immutable from before. */
  lemma ApplyCompletes(fs: Fs, env: Env, u: UserInfo, v: Variant)
    ensures Apply(fs, env, u, v).step == Completed <==>
      && !(UserInfoPath in fs.files && fs.files[UserInfoPath].immutable)
      && !(CacheFile(env) in fs.files && fs.files[CacheFile(env)].immutable)
      && !(TimeFile(env) in fs.files && fs.files[TimeFile(env)].immutable)
  {
    PathsDistinct(env);
    var fs2 := BackupOriginal(MakeDirs(fs, DataPath, env.newDirMode), v);
    assert Agree(fs, fs2, UserInfoPath) && Agree(fs, fs2, CacheFile(env)) && Agree(fs, fs2, TimeFile(env));
    match PlaceUserInfo(fs2, env, u)
    case Err(_) =>
    case Ok(fs3) =>
      assert Agree(fs2, fs3, CacheFile(env)) && Agree(fs2, fs3, TimeFile(env));
  }

  /** A completed `apply` leaves both cache files holding their timestamps
      under the MAC-derived key. */
  lemma ApplyWritesCache(fs: Fs, env: Env, u: UserInfo, v: Variant)
    requires Apply(fs, env, u, v).step == Completed
    ensures var r := Apply(fs, env, u, v);
      && CacheFile(env) in r.fs.files && TimeFile(env) in r.fs.files
      && r.fs.files[CacheFile(env)].content == Plain(Decimal(env.clock.cacheExpire + OneYear))
      && r.fs.files[TimeFile(env)].content == Plain(Decimal(env.clock.cacheStamp))
      && r.fs.files[CacheFile(env)].immutable == (env.chattr(CacheFile(env)) == Works)
      && r.fs.files[TimeFile(env)].immutable == (env.chattr(TimeFile(env)) == Works)
  {
  }

  /** `apply` touches no file but the user info, its backup and the two
      cache files, and no directory but the data directory. */
  lemma ApplyFrame(fs: Fs, env: Env, u: UserInfo, v: Variant, p: Path)
    requires p !in {UserInfoPath, BackupPath, CacheFile(env), TimeFile(env)}
    ensures Agree(fs, Apply(fs, env, u, v).fs, p)
    ensures Apply(fs, env, u, v).fs.dirs == MakeDirs(fs, DataPath, env.newDirMode).dirs
  {
    PathsDistinct(env);
    var fs2 := BackupOriginal(MakeDirs(fs, DataPath, env.newDirMode), v);
    assert Agree(fs, fs2, p);
    match PlaceUserInfo(fs2, env, u)
    case Err(_) =>
    case Ok(fs3) =>
      assert Agree(fs2, fs3, p);
      assert Agree(fs3, LicenseCache(fs3, env).fs, p);
  }

  // ---------------------------------------------------------------------
  // remove

  /** With a backup, a `remove` that completes puts the backup's content
      and mode back as `userInfo.json`, without the attribute. */
  lemma RemoveRestores(fs: Fs, env: Env)
    requires BackupPath in fs.files
    requires Remove(fs, env).step == Completed
    ensures var r := Remove(fs, env);
      UserInfoPath in r.fs.files
      && r.fs.files[UserInfoPath] == File(fs.files[BackupPath].content, false, fs.files[BackupPath].mode)
  {
    PathsDistinct(env);
    var fs1 := if UserInfoPath in fs.files then ClearImmutable(fs, UserInfoPath, env.chattr(UserInfoPath)).fs else fs;
    assert Agree(fs, fs1, BackupPath);
    var fs2 := Restore(fs1).value;
    assert Agree(fs2, CleanCaches(fs2, env), UserInfoPath);
  }

  /** Without a backup, a `remove` that completes leaves no `userInfo.json`. */
  lemma RemoveDeletes(fs: Fs, env: Env)
    requires BackupPath !in fs.files
    requires Remove(fs, env).step == Completed
    ensures UserInfoPath !in Remove(fs, env).fs.files
  {
    PathsDistinct(env);
    var fs1 := if UserInfoPath in fs.files then ClearImmutable(fs, UserInfoPath, env.chattr(UserInfoPath)).fs else fs;
    assert Agree(fs, fs1, BackupPath);
    var fs2 := Restore(fs1).value;
    assert Agree(fs2, CleanCaches(fs2, env), UserInfoPath);
  }

  /** A completed `remove` deletes each cache file unless it is immutable
      and `chattr -i` does not work on it, and deletes the plugin cache
      unless it is immutable. */
  lemma RemoveCleans(fs: Fs, env: Env)
    requires Remove(fs, env).step == Completed
    ensures var r := Remove(fs, env);
      && (CacheFile(env) in r.fs.files <==>
           CacheFile(env) in fs.files && fs.files[CacheFile(env)].immutable && env.chattr(CacheFile(env)) != Works)
      && (TimeFile(env) in r.fs.files <==>
           TimeFile(env) in fs.files && fs.files[TimeFile(env)].immutable && env.chattr(TimeFile(env)) != Works)
      && (PluginCachePath in r.fs.files <==> PluginCachePath in fs.files && fs.files[PluginCachePath].immutable)
  {
    PathsDistinct(env);
    var fs1 := if UserInfoPath in fs.files then ClearImmutable(fs, UserInfoPath, env.chattr(UserInfoPath)).fs else fs;
    assert Agree(fs, fs1, CacheFile(env)) && Agree(fs, fs1, TimeFile(env)) && Agree(fs, fs1, PluginCachePath);
    var fs2 := Restore(fs1).value;
    assert Agree(fs1, fs2, CacheFile(env)) && Agree(fs1, fs2, TimeFile(env)) && Agree(fs1, fs2, PluginCachePath);
    CleanCachesDeletes(fs2, env);
  }

  /** `remove` touches no file but `userInfo.json` and the three caches,
      and no directory. */
  lemma RemoveFrame(fs: Fs, env: Env, p: Path)
    requires p != UserInfoPath && p != CacheFile(env) && p != TimeFile(env) && p != PluginCachePath
    ensures Agree(fs, Remove(fs, env).fs, p)
    ensures Remove(fs, env).fs.dirs == fs.dirs
  {
    var fs1 := if UserInfoPath in fs.files then ClearImmutable(fs, UserInfoPath, env.chattr(UserInfoPath)).fs else fs;
    assert Agree(fs, fs1, p);
    match Restore(fs1)
    case Err(_) =>
    case Ok(fs2) =>
      assert Agree(fs1, fs2, p);
      assert Agree(fs2, CleanCaches(fs2, env), p);
  }

  /** The `userInfo.json` that `apply` writes for a host carries the host's
      server id and a token of three segments whose signature checks
      against that server id. */
  lemma MockDocToken(md5: Md5, host: Host, clock: Clock)
    ensures var c := UserInfoDoc(MockUserInfo(md5, host, clock));
      && IsMockDoc(c) && c.value.JObj?
      && "server_id" in c.value.fields && c.value.fields["server_id"] == JStr(ServerId(md5, host))
      && "token" in c.value.fields && c.value.fields["token"].JStr?
      && WellFormed(c.value.fields["token"].s) && SignedFor(md5, c.value.fields["token"].s, ServerId(md5, host))
  {
    var u := MockUserInfo(md5, host, clock);
    UserInfoDocFields(u);
  }

  // ---------------------------------------------------------------------
  // apply, then remove

  /** `remove` undoes `apply` on a system holding a `userInfo.json` that
      is not immutable and no backup: the file comes back as it was, and
      its copy stays behind as the backup. Corrected, this holds for a
      file that is not the tool's own mock; as written, for any. */
  lemma ApplyThenRemoveRestores(fs: Fs, env: Env, u: UserInfo, v: Variant)
    requires UserInfoPath in fs.files && BackupPath !in fs.files
    requires !fs.files[UserInfoPath].immutable
    requires v == AsWritten || !IsMockDoc(fs.files[UserInfoPath].content)
    ensures var r := Remove(Apply(fs, env, u, v).fs, env);
      && r.step == Completed
      && UserInfoPath in r.fs.files && r.fs.files[UserInfoPath] == fs.files[UserInfoPath]
      && BackupPath in r.fs.files && r.fs.files[BackupPath] == fs.files[UserInfoPath]
  {
    var fs1 := Apply(fs, env, u, v).fs;
    ApplyBacksUp(fs, env, u, v);
    ApplyLocksOnlyByChattr(fs, env, u, v);
    RemoveRestores(fs1, env);
  }

  /** On a system with neither `userInfo.json` nor a backup, `apply` and
      then `remove` leave neither behind. */
  lemma ApplyThenRemoveFresh(fs: Fs, env: Env, u: UserInfo, v: Variant)
    requires UserInfoPath !in fs.files && BackupPath !in fs.files
    ensures var r := Remove(Apply(fs, env, u, v).fs, env);
      r.step == Completed && UserInfoPath !in r.fs.files && BackupPath !in r.fs.files
  {
    var fs1 := Apply(fs, env, u, v).fs;
    ApplyBacksUp(fs, env, u, v);
    ApplyLocksOnlyByChattr(fs, env, u, v);
    RemoveDeletes(fs1, env);
  }

  /** As written, a second `apply` on a fresh system takes the first
      one's mock for the original and backs it up, so a later `remove`
      restores the mock instead of deleting it. */
  lemma DoubleApplyKeepsMock(fs: Fs, env: Env, u1: UserInfo, u2: UserInfo)
    requires UserInfoPath !in fs.files && BackupPath !in fs.files
    ensures var r1 := Apply(fs, env, u1, AsWritten);
      var r := Remove(Apply(r1.fs, env, u2, AsWritten).fs, env);
      && r.step == Completed
      && UserInfoPath in r.fs.files && IsMockDoc(r.fs.files[UserInfoPath].content)
      && r.fs.files[UserInfoPath].content == UserInfoDoc(u1)
  {
    var fs1 := Apply(fs, env, u1, AsWritten).fs;
    ApplyWritesUserInfo(fs, env, u1, AsWritten);
    ApplyBacksUp(fs, env, u1, AsWritten);
    ApplyLocksOnlyByChattr(fs, env, u1, AsWritten);
    var fs2 := Apply(fs1, env, u2, AsWritten).fs;
    ApplyBacksUp(fs1, env, u2, AsWritten);
    ApplyLocksOnlyByChattr(fs1, env, u2, AsWritten);
    RemoveRestores(fs2, env);
    UserInfoDocFields(u1);
  }

  /** Corrected, `apply` twice and then `remove` leave no `userInfo.json`
      on a system that had none, as one `apply` and `remove` do. */
  lemma DoubleApplyThenRemove(fs: Fs, env: Env, u1: UserInfo, u2: UserInfo)
    requires UserInfoPath !in fs.files && BackupPath !in fs.files
    ensures var r1 := Apply(fs, env, u1, Corrected);
      var r := Remove(Apply(r1.fs, env, u2, Corrected).fs, env);
      r.step == Completed && UserInfoPath !in r.fs.files && BackupPath !in r.fs.files
  {
    var fs1 := Apply(fs, env, u1, Corrected).fs;
    ApplyWritesUserInfo(fs, env, u1, Corrected);
    ApplyBacksUp(fs, env, u1, Corrected);
    ApplyLocksOnlyByChattr(fs, env, u1, Corrected);
    UserInfoDocFields(u1);
    var fs2 := Apply(fs1, env, u2, Corrected).fs;
    ApplyBacksUp(fs1, env, u2, Corrected);
    ApplyLocksOnlyByChattr(fs1, env, u2, Corrected);
    RemoveDeletes(fs2, env);
  }

  // ---------------------------------------------------------------------
  // status

  /** Corrected, the protection `status` reports for a file is the
      immutable attribute when `lsattr` can see it, then the `444` bits. */
  lemma ProtectionCorrected(fs: Fs, p: Path, s: AttrSupport)
    requires p in fs.files
    ensures ProtectionOf(fs, p, s, Corrected) ==
      if s == Works && fs.files[p].immutable then Immutable
      else if PermBits(fs.files[p].mode) == Mode444 then ReadOnly
      else Writable(PermBits(fs.files[p].mode))
  {
  }

  /** No character of the cache file's path is `i` or `I`: `/tmp/bmac_`
      followed by hex digits. */
  lemma CachePathPlain(env: Env)
    ensures 'i' !in CacheFile(env) && 'I' !in CacheFile(env)
  {
    var c := CacheFile(env);
    var key := CacheKey(env.md5, env.host.mac);
    forall k | 0 <= k < |c| ensures c[k] != 'i' && c[k] != 'I' {
      if k < 5 {
        assert c[k] == "/tmp/"[k];
      } else if k < 10 {
        assert c[k] == key[k - 5] == CacheKeyPrefix[k - 5];
      } else {
        assert c[k] == key[k - 5] == key[5..][k - 10];
      }
    }
  }

  /** For the cache files the as-written attribute check is exact. */
  lemma CacheCheckExact(fs: Fs, env: Env, v: Variant)
    ensures CheckImmutable(fs, CacheFile(env), env.lsattr(CacheFile(env)), v) <==>
      env.lsattr(CacheFile(env)) == Works && CacheFile(env) in fs.files && fs.files[CacheFile(env)].immutable
  {
    CachePathPlain(env);
  }

  /** `status` reads back the user, the first 16 characters of the server
      id and the plan from a `userInfo.json` that `apply` wrote. */
  lemma MockDocStatus(fs: Fs, env: Env, u: UserInfo, v: Variant)
    requires UserInfoPath in fs.files && fs.files[UserInfoPath].content == UserInfoDoc(u)
    ensures UserInfoStatus(fs, env, v) ==
      UserInfoMock(JStr(u.username), JStr(Take(u.serverId, 16)), JStr(u.plan),
        ProtectionOf(fs, UserInfoPath, env.lsattr(UserInfoPath), v))
  {
    UserInfoDocFields(u);
  }

  /** As written, `status` reports a mock `userInfo.json` immutable
      whenever `lsattr` runs, attribute or not: the capital `I` of its
      path turns into an `i` once the output is lowered. Corrected, it
      does not. */
  lemma StatusOverclaims(fs: Fs, env: Env, u: UserInfo)
    requires UserInfoPath in fs.files && fs.files[UserInfoPath].content == UserInfoDoc(u)
    requires !fs.files[UserInfoPath].immutable && env.lsattr(UserInfoPath) == Works
    ensures UserInfoStatus(fs, env, AsWritten).UserInfoMock?
    ensures UserInfoStatus(fs, env, AsWritten).protection == Immutable
    ensures UserInfoStatus(fs, env, Corrected).UserInfoMock?
    ensures UserInfoStatus(fs, env, Corrected).protection != Immutable
  {
    MockDocStatus(fs, env, u, AsWritten);
    MockDocStatus(fs, env, u, Corrected);
    UserInfoCheckAsWritten(fs);
  }

  /** Where `chattr +i` is refused (a container without the capability)
      but `lsattr` runs, `apply` leaves `userInfo.json` without the
      attribute, and as written `status` still reports it IMMUTABLE. */
  lemma ApplyWithoutChattrOverclaims(fs: Fs, env: Env, u: UserInfo)
    requires Apply(fs, env, u, AsWritten).step == Completed
    requires env.chattr(UserInfoPath) != Works && env.lsattr(UserInfoPath) == Works
    ensures var r := Apply(fs, env, u, AsWritten).fs;
      && UserInfoPath in r.files && !r.files[UserInfoPath].immutable
      && UserInfoStatus(r, env, AsWritten).UserInfoMock?
      && UserInfoStatus(r, env, AsWritten).protection == Immutable
  {
    var r := Apply(fs, env, u, AsWritten).fs;
    ApplyCompletes(fs, env, u, AsWritten);
    ApplyWritesUserInfo(fs, env, u, AsWritten);
    StatusOverclaims(r, env, u);
  }

  /** The as-written check finds an `i` in the lowered `lsattr` output
      for `userInfo.json` whatever its attributes. */
  lemma UserInfoCheckAsWritten(fs: Fs)
    requires UserInfoPath in fs.files
    ensures CheckImmutable(fs, UserInfoPath, Works, AsWritten)
  {
    assert UserInfoPath[27] == 'I';
  }

  /** The cache file `apply` writes is reported active until its expiry,
      with the expiry `apply` wrote, as long as `datetime` can hold that
      expiry; past the year 9999 it is reported as an error. */
  lemma CacheStatusAfterApply(fs: Fs, env: Env, u: UserInfo, v: Variant, now: int)
    requires Apply(fs, env, u, v).step == Completed
    requires now < env.clock.cacheExpire + OneYear
    ensures var c := CacheStatus(Apply(fs, env, u, v).fs, env, now, v);
      && (c.CacheActive? <==> Representable(env.clock.cacheExpire + OneYear, env.utcOffset))
      && (!c.CacheActive? ==> c == CacheError)
      && (c.CacheActive? ==>
           c.expire == env.clock.cacheExpire + OneYear
           && (c.protection == Immutable <==> env.chattr(CacheFile(env)) == Works && env.lsattr(CacheFile(env)) == Works))
  {
    var fs1 := Apply(fs, env, u, v).fs;
    ApplyWritesCache(fs, env, u, v);
    CacheStatusOf(fs1, env, now, v, env.clock.cacheExpire + OneYear);
    CacheCheckExact(fs1, env, v);
  }

  /** A cache file holding the decimal text of `n` is active before `n`,
      or an error when `datetime` cannot hold `n`. */
  lemma CacheStatusOf(fs: Fs, env: Env, now: int, v: Variant, n: nat)
    requires CacheFile(env) in fs.files && fs.files[CacheFile(env)].content == Plain(Decimal(n))
    requires now < n
    ensures CacheStatus(fs, env, now, v) ==
      if Representable(n, env.utcOffset)
      then CacheActive(n, ProtectionOf(fs, CacheFile(env), env.lsattr(CacheFile(env)), v))
      else CacheError
  {
    ReadIntDecimal(n);
  }

  /** The server id `status` shows for a host's mock is the first 16
      characters of the digest of its MAC and hostname. */
  lemma ServerIdShown(md5: Md5, h: Host)
    ensures Prefix(JStr(ServerId(md5, h)), 16) == Some(JStr(md5(h.mac + h.hostname)[..16]))
  {
    var a := md5(h.mac + h.hostname);
    PrefixAppend(a[..16], ServerId(md5, h)[16..]);
    assert ServerId(md5, h) == a[..16] + ServerId(md5, h)[16..];
  }

  /** After a completed `apply`, corrected `status` reports the mock user,
      plan and server id prefix, protected by the attribute exactly when
      both `chattr` and `lsattr` work, and the data directory present. */
  lemma StatusAfterApply(fs: Fs, env: Env, u: UserInfo)
    requires Apply(fs, env, u, Corrected).step == Completed
    ensures var s := UserInfoStatus(Apply(fs, env, u, Corrected).fs, env, Corrected);
      && s.UserInfoMock?
      && s.user == JStr(u.username) && s.serverIdPrefix == JStr(Take(u.serverId, 16)) && s.plan == JStr(u.plan)
      && (s.protection == Immutable <==> env.chattr(UserInfoPath) == Works && env.lsattr(UserInfoPath) == Works)
    ensures DirStatus(Apply(fs, env, u, Corrected).fs) != DirMissing
  {
    var fs1 := Apply(fs, env, u, Corrected).fs;
    ApplyCompletes(fs, env, u, Corrected);
    ApplyWritesUserInfo(fs, env, u, Corrected);
    MockDocStatus(fs1, env, u, Corrected);
    ProtectionCorrected(fs1, UserInfoPath, env.lsattr(UserInfoPath));
  }

  /** After a completed `remove`, `status` reports the backup exactly when
      there was one, no `userInfo.json` when there was no backup, the
      license cache missing unless it was stuck immutable, and the data
      directory as before. */
  lemma StatusAfterRemove(fs: Fs, env: Env, now: int, v: Variant)
    requires Remove(fs, env).step == Completed
    ensures var s := Status(Remove(fs, env).fs, env, now, v);
      && (s.backupExists <==> BackupPath in fs.files)
      && (BackupPath !in fs.files ==> s.userInfo == UserInfoMissing)
      && (s.cache == CacheMissing <==>
           !(CacheFile(env) in fs.files && fs.files[CacheFile(env)].immutable && env.chattr(CacheFile(env)) != Works))
      && s.dataDir == DirStatus(fs)
  {
    PathsDistinct(env);
    RemoveFrame(fs, env, BackupPath);
    RemoveCleans(fs, env);
    if BackupPath !in fs.files {
      RemoveDeletes(fs, env);
    }
  }

  // ---------------------------------------------------------------------
  // fix

  /** `fix` makes a mock `userInfo.json` read-only unless it is immutable,
      and leaves any other one as it is. */
  lemma FixUserInfo(fs: Fs)
    ensures var r := Fix(fs);
      && (UserInfoPath in r.files <==> UserInfoPath in fs.files)
      && (UserInfoPath in fs.files ==>
           var f := fs.files[UserInfoPath];
           r.files[UserInfoPath] == if IsMockDoc(f.content) && !f.immutable then f.(mode := Mode444) else f)
  {
    assert UserInfoPath[23] != PluginCachePath[23];
    var fs1 := match ChmodDir(fs, DataPath, Mode755) case Ok(fs1) => fs1 case Err(_) => fs;
    assert fs1.files == fs.files;
    var fs2 :=
      if UserInfoPath in fs1.files && IsMockDoc(fs1.files[UserInfoPath].content)
      then TryChmod(fs1, UserInfoPath, Mode444) else fs1;
    assert Agree(fs2, Fix(fs), UserInfoPath);
  }

  /** `fix` makes the plugin cache `644` unless it is immutable. */
  lemma FixPluginCache(fs: Fs)
    ensures var r := Fix(fs);
      && (PluginCachePath in r.files <==> PluginCachePath in fs.files)
      && (PluginCachePath in fs.files ==>
           var f := fs.files[PluginCachePath];
           r.files[PluginCachePath] == if f.immutable then f else f.(mode := Mode644))
  {
    assert UserInfoPath[23] != PluginCachePath[23];
    var fs1 := match ChmodDir(fs, DataPath, Mode755) case Ok(fs1) => fs1 case Err(_) => fs;
    assert fs1.files == fs.files;
    var fs2 :=
      if UserInfoPath in fs1.files && IsMockDoc(fs1.files[UserInfoPath].content)
      then TryChmod(fs1, UserInfoPath, Mode444) else fs1;
    assert Agree(fs1, fs2, PluginCachePath);
  }

  /** `fix` touches no other file. */
  lemma FixFrame(fs: Fs, p: Path)
    requires p != UserInfoPath && p != PluginCachePath
    ensures Agree(fs, Fix(fs), p)
  {
    var fs1 := match ChmodDir(fs, DataPath, Mode755) case Ok(fs1) => fs1 case Err(_) => fs;
    assert fs1.files == fs.files;
    var fs2 :=
      if UserInfoPath in fs1.files && IsMockDoc(fs1.files[UserInfoPath].content)
      then TryChmod(fs1, UserInfoPath, Mode444) else fs1;
    assert Agree(fs1, fs2, p);
  }

  /** Running `fix` a second time changes nothing. */
  lemma FixIdempotent(fs: Fs)
    ensures Fix(Fix(fs)) == Fix(fs)
  {
    var r1 := Fix(fs);
    var r2 := Fix(r1);
    assert r2.dirs == r1.dirs;
    FixUserInfo(fs);
    FixUserInfo(r1);
    FixPluginCache(fs);
    FixPluginCache(r1);
    forall p | p in r1.files
      ensures r2.files[p] == r1.files[p]
    {
      if p != UserInfoPath && p != PluginCachePath {
        FixFrame(r1, p);
      }
    }
    assert r2.files == r1.files;
  }

  /** After `fix`, `status` reports an existing data directory writable. */
  lemma FixThenDirStatus(fs: Fs)
    ensures DataPath in fs.dirs ==> DirStatus(Fix(fs)) == DirWritable
    ensures DataPath !in fs.dirs ==> DirStatus(Fix(fs)) == DirMissing
  {
    assert PermBits(Mode755) == Mode755;
  }

  /** After `fix`, corrected `status` reports a mock `userInfo.json` that
      `apply` could not make immutable as read-only. */
  lemma FixThenStatus(fs: Fs, env: Env, u: UserInfo)
    requires UserInfoPath in fs.files && fs.files[UserInfoPath].content == UserInfoDoc(u)
    requires !fs.files[UserInfoPath].immutable
    ensures var s := UserInfoStatus(Fix(fs), env, Corrected);
      s.UserInfoMock? && s.protection == ReadOnly
  {
    var r := Fix(fs);
    UserInfoDocFields(u);
    FixUserInfo(fs);
    assert r.files[UserInfoPath] == fs.files[UserInfoPath].(mode := Mode444);
    MockDocStatus(r, env, u, Corrected);
    ProtectionCorrected(r, UserInfoPath, env.lsattr(UserInfoPath));
  }

  /** As written, `status` after `fix` reports the same mock IMMUTABLE
      exactly when `lsattr` runs, read-only bits or not. */
  lemma FixThenStatusAsWritten(fs: Fs, env: Env, u: UserInfo)
    requires UserInfoPath in fs.files && fs.files[UserInfoPath].content == UserInfoDoc(u)
    requires !fs.files[UserInfoPath].immutable
    ensures var s := UserInfoStatus(Fix(fs), env, AsWritten);
      s.UserInfoMock? && (s.protection == Immutable <==> env.lsattr(UserInfoPath) == Works)
  {
    FixUserInfo(fs);
    MockStatusAsWritten(Fix(fs), env, u);
  }

  /** As written, `status` reports any mock `userInfo.json` IMMUTABLE
      exactly when `lsattr` runs. */
  lemma MockStatusAsWritten(fs: Fs, env: Env, u: UserInfo)
    requires UserInfoPath in fs.files && fs.files[UserInfoPath].content == UserInfoDoc(u)
    ensures var s := UserInfoStatus(fs, env, AsWritten);
      s.UserInfoMock? && (s.protection == Immutable <==> env.lsattr(UserInfoPath) == Works)
  {
    MockDocStatus(fs, env, u, AsWritten);
    if env.lsattr(UserInfoPath) == Works {
      UserInfoCheckAsWritten(fs);
    }
  }
}

=== FILE: text.dfy ===
/** Strings as the tool handles them: Python `str` operations it relies on
    (`rstrip`, slicing, `split`, `lower`, `in`, `strip`, `int`, `str`,
    `encode`), stated over `seq<char>`. */
module Text {

  datatype Option<+T> = None | Some(value: T)

  /** An 8-bit byte, as produced by `str.encode()`. */
  newtype byte = x: int | 0 <= x < 256

  // ---------------------------------------------------------------------
  // Slicing and stripping

  /** Python `s[:n]` for a non-negative `n`. */
  function Take(s: string, n: nat): (r: string)
    ensures |r| == if n <= |s| then n else |s|
    ensures r <= s
  {
    if n <= |s| then s[..n] else s
  }

  /** Python `s.rstrip(c)`: drops every trailing occurrence of `c`. */
  function RStrip(s: string, c: char): (r: string)
    ensures r <= s
    ensures |r| == 0 || r[|r| - 1] != c
    ensures forall i | |r| <= i < |s| :: s[i] == c
    decreases |s|
  {
    if |s| > 0 && s[|s| - 1] == c then RStrip(s[..|s| - 1], c) else s
  }

  /** Appending copies of `c` does not change what `rstrip(c)` returns. */
  lemma {:induction false} RStripAppended(s: string, c: char, k: nat)
    ensures RStrip(s + Repeat(c, k), c) == RStrip(s, c)
    decreases k
  {
    if k > 0 {
      var t := s + Repeat(c, k);
      assert t[..|t| - 1] == s + Repeat(c, k - 1);
      RStripAppended(s, c, k - 1);
    } else {
      assert s + Repeat(c, k) == s;
    }
  }

  function Repeat(c: char, k: nat): (r: string)
    ensures |r| == k
    ensures forall i | 0 <= i < k :: r[i] == c
  {
    if k == 0 then "" else [c] + Repeat(c, k - 1)
  }

  // ---------------------------------------------------------------------
  // Splitting on a separator

  /** Python `s.split(sep)` for a one-character separator: the pieces
      between consecutive separators, always at least one. */
  function Split(s: string, sep: char): (parts: seq<string>)
    ensures |parts| >= 1
    decreases |s|
  {
    if |s| == 0 then [""]
    else
      var rest := Split(s[1..], sep);
      if s[0] == sep then [""] + rest
      else [[s[0]] + rest[0]] + rest[1..]
  }

  /** `sep.join(parts)`. */
  function Join(parts: seq<string>, sep: char): string
    requires |parts| >= 1
    decreases |parts|
  {
    if |parts| == 1 then parts[0] else parts[0] + [sep] + Join(parts[1..], sep)
  }

  /** Number of occurrences of `c` in `s`. */
  function Count(s: string, c: char): nat
    decreases |s|
  {
    if |s| == 0 then 0 else (if s[0] == c then 1 else 0) + Count(s[1..], c)
  }

  lemma {:induction false} CountConcat(a: string, b: string, c: char)
    ensures Count(a + b, c) == Count(a, c) + Count(b, c)
    decreases |a|
  {
    if |a| == 0 {
      assert a + b == b;
    } else {
      assert (a + b)[1..] == a[1..] + b;
      CountConcat(a[1..], b, c);
    }
  }

  /** Joining the pieces of a split with the same separator gives the
      original string back, and there is one piece more than separators. */
  lemma {:induction false} SplitJoin(s: string, sep: char)
    ensures Join(Split(s, sep), sep) == s
    ensures |Split(s, sep)| == Count(s, sep) + 1
    ensures forall k | 0 <= k < |Split(s, sep)| :: sep !in Split(s, sep)[k]
    decreases |s|
  {
    if |s| > 0 {
      SplitJoin(s[1..], sep);
      var rest := Split(s[1..], sep);
      if s[0] == sep {
        assert Split(s, sep)[1..] == rest;
        assert s == [sep] + s[1..];
      } else {
        var parts := Split(s, sep);
        if |rest| == 1 {
          assert s == [s[0]] + rest[0];
        } else {
          assert parts[1..] == rest[1..];
          assert Join(rest, sep) == rest[0] + [sep] + Join(rest[1..], sep);
          assert s == [s[0]] + s[1..];
        }
      }
    }
  }

  /** A piece free of the separator is split off intact. */
  lemma {:induction false} SplitPrefix(a: string, sep: char, b: string)
    requires sep !in a
    ensures Split(a + [sep] + b, sep) == [a] + Split(b, sep)
    decreases |a|
  {
    var s := a + [sep] + b;
    if |a| == 0 {
      assert s[1..] == b;
    } else {
      assert s[1..] == a[1..] + [sep] + b;
      assert sep !in a[1..] by {
        forall i | 0 <= i < |a[1..]| ensures a[1..][i] != sep {
          assert a[1..][i] == a[i + 1];
        }
      }
      SplitPrefix(a[1..], sep, b);
      assert [a[0]] + a[1..] == a;
    }
  }

  /** A string free of the separator splits into itself. */
  lemma {:induction false} SplitWhole(a: string, sep: char)
    requires sep !in a
    ensures Split(a, sep) == [a]
    decreases |a|
  {
    if |a| > 0 {
      assert sep !in a[1..] by {
        forall i | 0 <= i < |a[1..]| ensures a[1..][i] != sep {
          assert a[1..][i] == a[i + 1];
        }
      }
      SplitWhole(a[1..], sep);
      assert [a[0]] + a[1..] == a;
    }
  }

  // ---------------------------------------------------------------------
  // Case folding and substring search

  /** `str.lower()` on one character, restricted to the ASCII letters. */
  function LowerChar(c: char): char
  {
    if 'A' <= c <= 'Z' then (c as int + 32) as char else c
  }

  /** Python `str.lower()` restricted to the ASCII letters. It keeps the
      length, and the lowered text has an `i` exactly where the original
      had an `i` or an `I`. */
  function Lower(s: string): (r: string)
    ensures |r| == |s|
    ensures 'i' in r <==> 'i' in s || 'I' in s
  {
    var r := seq(|s|, i requires 0 <= i < |s| => LowerChar(s[i]));
    LowersHaveI(s, r);
    r
  }

  /** A character-by-character lowering has an `i` exactly where the
      original had an `i` or an `I`. */
  lemma LowersHaveI(s: string, r: string)
    requires |r| == |s| && forall k | 0 <= k < |s| :: r[k] == LowerChar(s[k])
    ensures 'i' in r <==> 'i' in s || 'I' in s
  {
    if 'i' in r {
      var k :| 0 <= k < |r| && r[k] == 'i';
      assert s[k] == 'i' || s[k] == 'I';
    }
    if 'i' in s || 'I' in s {
      var k :| 0 <= k < |s| && (s[k] == 'i' || s[k] == 'I');
      assert r[k] == 'i';
    }
  }

  /** Python `needle in hay` for strings. */
  predicate IsSubstring(needle: string, hay: string)
  {
    exists i | 0 <= i <= |hay| - |needle| :: OccursAt(needle, hay, i)
  }

  predicate OccursAt(needle: string, hay: string, i: int)
    requires 0 <= i <= |hay| - |needle|
  {
    hay[i..i + |needle|] == needle
  }

  // ---------------------------------------------------------------------
  // Decimal numbers: `str(n)` and `int(s.strip())`

  function DigitChar(d: int): (c: char)
    requires 0 <= d < 10
    ensures '0' <= c <= '9'
  {
    ('0' as int + d) as char
  }

  /** `str(n)` for a non-negative integer. */
  function Decimal(n: nat): (r: string)
    ensures |r| >= 1
    ensures forall i | 0 <= i < |r| :: '0' <= r[i] <= '9'
    decreases n
  {
    if n < 10 then [DigitChar(n)] else Decimal(n / 10) + [DigitChar(n % 10)]
  }

  predicate IsDigits(s: string)
  {
    forall i | 0 <= i < |s| :: '0' <= s[i] <= '9'
  }

  /** Value of a string of decimal digits, most significant first. */
  function DigitsValue(s: string): nat
    requires IsDigits(s)
    decreases |s|
  {
    if |s| == 0 then 0
    else DigitsValue(s[..|s| - 1]) * 10 + (s[|s| - 1] as int - '0' as int)
  }

  /** The characters Python's `str.strip()` removes, ASCII range only. */
  predicate IsSpace(c: char)
  {
    c == ' ' || c == '\t' || c == '\n' || c == '\r' || c == '\U{B}' || c == '\U{C}'
    || ('\U{1C}' <= c <= '\U{1F}')
  }

  function StripSpace(s: string): (r: string)
    ensures |r| <= |s|
    ensures |r| == 0 || (!IsSpace(r[0]) && !IsSpace(r[|r| - 1]))
    decreases |s|
  {
    if |s| > 0 && IsSpace(s[0]) then StripSpace(s[1..])
    else if |s| > 0 && IsSpace(s[|s| - 1]) then StripSpace(s[..|s| - 1])
    else s
  }

  /** `int(s.strip())`: an optional sign followed by decimal digits, or
      `None` where Python raises `ValueError`. */
  function ParseInt(s: string): (r: Option<int>)
  {
    var t := StripSpace(s);
    if |t| >= 2 && t[0] == '-' && IsDigits(t[1..]) then Some(-(DigitsValue(t[1..]) as int))
    else if |t| >= 2 && t[0] == '+' && IsDigits(t[1..]) then Some(DigitsValue(t[1..]))
    else if |t| >= 1 && IsDigits(t) then Some(DigitsValue(t))
    else None
  }

  lemma {:induction false} DecimalValue(n: nat)
    ensures IsDigits(Decimal(n)) && DigitsValue(Decimal(n)) == n
    decreases n
  {
    if n >= 10 {
      DecimalValue(n / 10);
      var s := Decimal(n);
      assert s[..|s| - 1] == Decimal(n / 10);
    }
  }

  /** Reading back what `str(n)` wrote gives `n`. */
  lemma ParseDecimal(n: nat)
    ensures ParseInt(Decimal(n)) == Some(n)
  {
    DecimalValue(n);
    var s := Decimal(n);
    assert !IsSpace(s[0]) && !IsSpace(s[|s| - 1]);
    assert StripSpace(s) == s;
    assert IsDigits(s) && s[0] != '-' && s[0] != '+';
  }

  // ---------------------------------------------------------------------
  // UTF-8: `str.encode()`

  /** The UTF-8 encoding of one Unicode scalar value. */
  function Utf8Char(c: char): (r: seq<byte>)
    ensures 1 <= |r| <= 4
    ensures (|r| == 1) <==> (c as int < 0x80)
  {
    var v := c as int;
    if v < 0x80 then [v as byte]
    else if v < 0x800 then [(0xC0 + v / 0x40) as byte, (0x80 + v % 0x40) as byte]
    else if v < 0x1_0000 then
      [(0xE0 + v / 0x1000) as byte, (0x80 + (v / 0x40) % 0x40) as byte, (0x80 + v % 0x40) as byte]
    else
      [(0xF0 + v / 0x4_0000) as byte, (0x80 + (v / 0x1000) % 0x40) as byte,
       (0x80 + (v / 0x40) % 0x40) as byte, (0x80 + v % 0x40) as byte]
  }

  /** `s.encode()` with the default UTF-8 codec. */
  function Utf8(s: string): seq<byte>
    decreases |s|
  {
    if |s| == 0 then [] else Utf8Char(s[0]) + Utf8(s[1..])
  }

  predicate IsAscii(s: string)
  {
    forall i | 0 <= i < |s| :: s[i] as int < 0x80
  }

  /** On ASCII text UTF-8 is one byte per character, each the code point. */
  lemma {:induction false} Utf8Ascii(s: string)
    requires IsAscii(s)
    ensures |Utf8(s)| == |s|
    ensures forall i | 0 <= i < |s| :: Utf8(s)[i] as int == s[i] as int
    decreases |s|
  {
    if |s| > 0 {
      assert IsAscii(s[1..]) by {
        forall i | 0 <= i < |s[1..]| ensures s[1..][i] as int < 0x80 {
          assert s[1..][i] == s[i + 1];
        }
      }
      Utf8Ascii(s[1..]);
    }
  }
}

=== FILE: token.dfy ===
/** The mock credential record and its JWT-shaped token
    (`generate_mock_userinfo`): header and payload are compact JSON,
    base64url-encoded without padding; the signature is the base64url
    form of an MD5 hex digest, cut to 43 characters. */
module Token {
  import opened Text
  import opened Digest
  import opened Base64Url
  import opened Identity
  import opened Json

  /** One year in seconds, `86400 * 365`. */
  const OneYear: nat := 86400 * 365

  /** The fixed string mixed into the signature input. */
  const SigningSecret := "bt_panel_secret"

  /** The readings of `int(time.time())` taken while applying, one per
      call site; they need not be equal. */
  datatype Clock = Clock(
    exp: nat,          // payload "exp" base
    iat: nat,          // payload "iat"
    login: nat,        // "login_time"
    expire: nat,       // "expire_time" base
    cacheExpire: nat,  // cache file's expiry base
    cacheStamp: nat)   // ".time" file

  /** `json.dumps({"alg": "HS256", "typ": "JWT"}, separators=(',', ':'))`,
      written one member at a time. */
  const HeaderJson := "{\"alg\":\"HS256\"," + "\"typ\":\"JWT\"}"

  const PayloadHead := "{\"uid\":12345,\"username\":\"debug_user\",\"email\":\"debug@example.com\",\"exp\":"
  const PayloadIat := ",\"iat\":"
  const PayloadServerId := ",\"server_id\":\""
  const PayloadTail := "\",\"plan\":\"pro\",\"features\":[\"all\"]}"

  /** The compact JSON text of the payload claims, keys in insertion
      order; the server id is hex, so nothing in it needs escaping. */
  function PayloadJson(exp: nat, iat: nat, serverId: string): string
  {
    PayloadHead + Decimal(exp) + PayloadIat + Decimal(iat) + PayloadServerId + serverId + PayloadTail
  }

  /** The server id appears verbatim inside the payload text. */
  lemma PayloadCarriesServerId(exp: nat, iat: nat, serverId: string)
    ensures IsSubstring(serverId, PayloadJson(exp, iat, serverId))
  {
    var pre := PayloadHead + Decimal(exp) + PayloadIat + Decimal(iat) + PayloadServerId;
    var text := PayloadJson(exp, iat, serverId);
    assert text == pre + serverId + PayloadTail;
    assert text[|pre|..|pre| + |serverId|] == serverId;
    assert OccursAt(serverId, text, |pre|);
  }

  /** One token segment: `urlsafe_b64encode(text.encode()).rstrip('=')`. */
  function Segment(text: string): (seg: string)
    ensures AllSym(seg) && '.' !in seg
    ensures Decode(seg) == Some(Utf8(text))
  {
    EncodeNoPadShape(Utf8(text));
    DecodeEncode(Utf8(text));
    EncodeNoPad(Utf8(text))
  }

  /** The signature segment over the first two segments and the server
      id: 43 characters of the base64url alphabet that decode to the hex
      digest of both segments, the server id and the signing secret. */
  function Signature(md5: Md5, header: string, payload: string, serverId: string): (sig: string)
    ensures |sig| == 43 && AllSym(sig) && '.' !in sig
    ensures Decode(sig) == Some(Utf8(md5(header + "." + payload + "." + serverId + "." + SigningSecret)))
  {
    var digest := md5(header + "." + payload + "." + serverId + "." + SigningSecret);
    SignatureShape(digest);
    DecodeEncode(Utf8(digest));
    Take(EncodeNoPad(Utf8(digest)), 43)
  }

  /** The padded encoding of a 32-character hex digest is 44 characters
      ending in exactly one `=`; stripping leaves 43, so the `[:43]` cut
      keeps all of it. */
  lemma SignatureShape(digest: HexDigest)
    ensures |Encode(Utf8(digest))| == 44
    ensures Encode(Utf8(digest))[43] == '=' && Encode(Utf8(digest))[42] != '='
    ensures |EncodeNoPad(Utf8(digest))| == 43
    ensures Take(EncodeNoPad(Utf8(digest)), 43) == EncodeNoPad(Utf8(digest))
    ensures AllSym(EncodeNoPad(Utf8(digest))) && '.' !in EncodeNoPad(Utf8(digest))
  {
    HexIsAscii(digest);
    Utf8Ascii(digest);
    var b := Utf8(digest);
    EncodeShape(b);
    EncodeNoPadShape(b);
    NoPadIsUnpadded(b);
    assert Encode(b)[..43] == Unpadded(b);
    assert Encode(b)[42] == Unpadded(b)[42];
    assert IsSym(Unpadded(b)[42]);
  }

  /** `header_b64.payload_b64.signature`. */
  function MakeToken(md5: Md5, serverId: string, exp: nat, iat: nat): (t: string)
    ensures Count(t, '.') == 2
    ensures var h, p := Segment(HeaderJson), Segment(PayloadJson(exp, iat, serverId));
      ParseToken(t) == Some(TokenParts(h, p, Signature(md5, h, p, serverId)))
  {
    var h := Segment(HeaderJson);
    var p := Segment(PayloadJson(exp, iat, serverId));
    var sig := Signature(md5, h, p, serverId);
    ThreePieces(h, p, sig);
    h + "." + p + "." + sig
  }

  /** The three pieces of a token. */
  datatype TokenParts = TokenParts(header: string, payload: string, signature: string)

  /** `token.split('.')` when it yields exactly three pieces. */
  function ParseToken(token: string): (r: Option<TokenParts>)
    ensures r.Some? <==> Count(token, '.') == 2
  {
    SplitJoin(token, '.');
    var parts := Split(token, '.');
    if |parts| == 3 then Some(TokenParts(parts[0], parts[1], parts[2])) else None
  }

  /** The structural check a consumer of the token can make: three
      segments, each valid unpadded base64url, a 43-character signature. */
  predicate WellFormed(token: string)
  {
    match ParseToken(token)
    case None => false
    case Some(t) =>
      Decode(t.header).Some? && Decode(t.payload).Some?
      && Decode(t.signature).Some? && |t.signature| == 43 && AllSym(t.signature)
  }

  /** Recomputes the signature from the first two segments and `serverId`. */
  predicate SignedFor(md5: Md5, token: string, serverId: string)
  {
    match ParseToken(token)
    case None => false
    case Some(t) => t.signature == Signature(md5, t.header, t.payload, serverId)
  }

  /** Three dot-free pieces joined by dots split back into exactly
      those pieces. */
  lemma ThreePieces(h: string, p: string, sig: string)
    requires '.' !in h && '.' !in p && '.' !in sig
    ensures Split(h + "." + p + "." + sig, '.') == [h, p, sig]
    ensures Count(h + "." + p + "." + sig, '.') == 2
    ensures ParseToken(h + "." + p + "." + sig) == Some(TokenParts(h, p, sig))
  {
    var t := h + "." + p + "." + sig;
    assert t == h + ['.'] + (p + ['.'] + sig);
    SplitPrefix(h, '.', p + ['.'] + sig);
    SplitPrefix(p, '.', sig);
    SplitWhole(sig, '.');
    SplitJoin(t, '.');
  }

  /** The token has exactly two dots, splits into exactly its three
      segments, passes the structural check, decodes to the header and
      payload JSON text, and carries a signature that checks against the
      server id it was made for. */
  lemma MakeTokenStructure(md5: Md5, serverId: string, exp: nat, iat: nat)
    ensures var t := MakeToken(md5, serverId, exp, iat);
      var h, p := Segment(HeaderJson), Segment(PayloadJson(exp, iat, serverId));
      && Count(t, '.') == 2
      && Split(t, '.') == [h, p, Signature(md5, h, p, serverId)]
      && Decode(h) == Some(Utf8(HeaderJson))
      && Decode(p) == Some(Utf8(PayloadJson(exp, iat, serverId)))
      && WellFormed(t)
      && SignedFor(md5, t, serverId)
  {
    var h, p := Segment(HeaderJson), Segment(PayloadJson(exp, iat, serverId));
    var sig := Signature(md5, h, p, serverId);
    ThreePieces(h, p, sig);
  }

  /** The mock `userInfo.json` record. */
  datatype UserInfo = UserInfo(
    id: int, uid: int, username: string, email: string, phone: string, avatar: string,
    token: string, serverId: string, accessKey: string, secretKey: string,
    loginTime: int, expireTime: int, plan: string, permissions: seq<string>, isMock: bool)

  /** `generate_mock_userinfo` for the given host and clock readings. */
  function MockUserInfo(md5: Md5, host: Host, clock: Clock): (u: UserInfo)
    ensures u.serverId == ServerId(md5, host)
    ensures u.accessKey == md5("access_" + u.serverId) && |u.accessKey| == 32
    ensures u.secretKey == md5("secret_" + u.serverId) && |u.secretKey| == 32
    ensures u.isMock && u.plan == "pro" && u.permissions == ["all"]
    ensures u.loginTime == clock.login && u.expireTime == clock.expire + OneYear
    ensures u.token == MakeToken(md5, u.serverId, clock.exp + OneYear, clock.iat)
    ensures WellFormed(u.token) && SignedFor(md5, u.token, u.serverId)
  {
    var id := ServerId(md5, host);
    var token := MakeToken(md5, id, clock.exp + OneYear, clock.iat);
    MakeTokenStructure(md5, id, clock.exp + OneYear, clock.iat);
    var access, secret := md5("access_" + id), md5("secret_" + id);
    assert Take(access, 32) == access && Take(secret, 32) == secret;
    UserInfo(
      12345, 12345, "debug_user", "debug@example.com", "", "",
      token, id, Take(access, 32), Take(secret, 32),
      clock.login, clock.expire + OneYear, "pro", ["all"], true)
  }

  /** The record's keys and values in the order the dict display lists
      them. */
  function Fields(u: UserInfo): seq<(string, Value)>
  {
    [("id", JInt(u.id)), ("uid", JInt(u.uid)), ("username", JStr(u.username)),
     ("email", JStr(u.email)), ("phone", JStr(u.phone)), ("avatar", JStr(u.avatar)),
     ("token", JStr(u.token)), ("server_id", JStr(u.serverId)),
     ("access_key", JStr(u.accessKey)), ("secret_key", JStr(u.secretKey)),
     ("login_time", JInt(u.loginTime)), ("expire_time", JInt(u.expireTime)),
     ("plan", JStr(u.plan)), ("permissions", JArr(Strings(u.permissions))),
     ("is_mock", JBool(u.isMock))]
  }

  /** The record as the JSON object `json.dump` writes. */
  function ToJson(u: UserInfo): Value
  {
    JObj(FromPairs(Fields(u)))
  }

  /** The keys `status` and `fix` read back hold the record's values. */
  lemma ToJsonFields(u: UserInfo)
    ensures ToJson(u).JObj?
    ensures var m := ToJson(u).fields;
      && "username" in m && m["username"] == JStr(u.username)
      && "token" in m && m["token"] == JStr(u.token)
      && "server_id" in m && m["server_id"] == JStr(u.serverId)
      && "plan" in m && m["plan"] == JStr(u.plan)
      && "is_mock" in m && m["is_mock"] == JBool(u.isMock)
  {
    var f := Fields(u);
    FromPairsLookup(f, 2);
    FromPairsLookup(f, 6);
    FromPairsLookup(f, 7);
    FromPairsLookup(f, 12);
    FromPairsLookup(f, 14);
  }
}
